=== FILE: README.md ===
# Event tracking service: a Dafny model of its core

The service stores operational events (deploys, incidents, alerts). Each
event has an id, an optional source and parent id, a start and an end time,
a description, labelled detail URLs and free-form tags (a dict from key to
list of strings). Events link to their parents, so they form graphs. This
project models the core that both packages of the repository share,
`event_tracking` and its successor `tycho`:

- **Timestamps** (`timestamps.dfy`): instants as integer microseconds.
  `IgnoreMicroseconds` drops the sub-millisecond digits, as every time
  field does.
- **Records** (`tagmap.dfy`, `records.dfy`):
  - the `Event` record and its tags dict, with dict assignment and
    `append` as sequence operations;
  - the field validators;
  - the two constructors with their defaults: the schematics model of
    `event_tracking`, and tycho's attrs class.
- **Codec** (`codec.dfy`, `codec_properties.dfy`):
  - the storage document: `_id`, a flat list of `"key:value"` tags with
    `source_id:`/`parent_id:` injected, a time array, `update_time`;
  - `serialize_to_db_event` and `deserialize_db_event`;
  - the `EventDB` schema;
  - the round trip decode(encode(e)) == e, and the error cases of the
    decoder.
- **Store** (`store.dfy`, `store_properties.dfy`): the collection wrapper.
  - Operations: `find_by_id`, `update_by_id`, `save`, `delete_by_id`,
    `find_by_parent_id` and `find` (tag filter, time range, sort,
    pagination).
  - The collection is a sequence of documents in natural order.
  - Lemmas relate reads to writes.
- **Graph** (`graph.dfy`): `trace` walks up parent links and `get_tree`
  builds the tree of descendants. Both are written over the two lookups
  they use, then instantiated with the store's.
- **Reconcile** (`reconcile.dfy`): the reconciliation of an incoming event
  with the stored one.
  - `_merge`, with `_merge_reserved_keys` and `_add_to_dict`.
  - `_update`.
  - The dispatch of `post_event`.
  - The two packages differ only in what an absent field is: `None` in
    `event_tracking`, any falsy value in tycho. The policy is written once,
    with the package as a parameter (`Reconcile.Present`).

`wrappers.dfy` holds `Option` and `Result`.

Three choices follow the code as written:

- tycho's `_merge` tests truthiness, but its `_update` tests `is not None`
  (tycho/routes/event.py:298). `Reconcile.Update` therefore serves both
  packages.
- `find_by_id` keeps the last document its cursor yields
  (event_tracking/db/event/__init__.py:37-38).
- `update_by_id` replaces the first document with the id.
- With a document that is not well formed these can differ. The lemmas
  assume the database's own invariant: every document has an `_id`, and no
  two share one (`Store.WellFormed`).

## Model

| member | source | states |
|---|---|---|
| Timestamps.IgnoreMicroseconds | event_tracking/models/types/__init__.py:16-19 | the result has no sub-millisecond digits, lies less than 1 ms at or below the input, and keeps its whole second |
| Timestamps.IgnoreMicrosecondsIsFloor | tycho/models/event.py:53-60 | truncation, not rounding: no millisecond-aligned instant at or before the input lies above the result |
| Timestamps.IgnoreMicrosecondsFixesAligned | event_tracking/models/types/__init__.py:25-27 | an aligned instant is unchanged, so converting a stored time again changes nothing |
| Timestamps.FromString | event_tracking/models/types/__init__.py:29-34 | an unparsable string stays `None`; a parsed one is truncated to the millisecond |
| TagMap.AppendValue | event_tracking/db/event/deserialize.py:55 | `defaultdict(list)[k].append(v)`: afterwards `k` holds its old list (or none) followed by `v` |
| TagMap.AppendAllIsPut | event_tracking/db/event/deserialize.py:48-55 | appending a non-empty list value by value equals one assignment of the old list extended by all of them |
| Records.CheckEntries | event_tracking/models/event.py:22-33 | the dict loop of the validator succeeds exactly when no key is `None` or "None", no list is `None`, and no element is `None` or over 100 characters |
| Records.EnsureMaxLengthAndTagsNotNone | event_tracking/models/event.py:12-34 | a string passes iff at most 100 characters, a dict iff its entries are acceptable, anything else passes; the value is returned unchanged |
| Records.EnsureNotEmpty | tycho/models/event.py:13-16 | fails exactly on falsy values (`None`, "", empty dict) |
| Records.EnsureNotNone | event_tracking/models/event.py:37-44 | fails exactly on `None` |
| Records.TagsFieldValid | event_tracking/models/event.py:22-33 | the validator accepts a record's tags iff no key is "None" and no value exceeds 100 characters |
| Records.ValidateTrackingEvent | event_tracking/models/event.py:82-108 | `validate()` succeeds iff id is set and at most 100 characters, source/parent ids are at most 100 characters, both times are set and the tags are acceptable |
| Records.ValidateTychoEvent | tycho/models/event.py:99-112 | tycho's validators succeed iff the id is non-empty and at most 100 characters, the other constraints as above |
| Records.NewTrackingEvent | event_tracking/models/event.py:82-108 | defaults: generated id, current time, empty tags; both times truncated; the other fields as given |
| Records.NewTychoEvent | tycho/models/event.py:99-112 | defaults: generated id, "" for source/parent id and description, `{}` for detail_urls and tags, the current time truncated for either time; a built record passes validation; an empty id is rejected; valid arguments are accepted |
| Codec.Encode | event_tracking/db/event/serialize.py:6-39 | the document keeps the id, description and detail_urls; it always has a tag list and a time array of at most two entries; `update_time` is the clock |
| Codec.TimeArray | event_tracking/db/event/serialize.py:27-31 | the time array has two entries exactly when both times are set, in start/end order |
| Codec.Flatten | event_tracking/db/event/serialize.py:42-56 | one `key:value` entry per value of the tags dict, so the entry count is the total number of values |
| Codec.ReservedEntries | event_tracking/db/event/serialize.py:19-22 | one entry per truthy source/parent id, `source_id:` first and `parent_id:` last |
| CodecProperties.FlattenMembers | event_tracking/db/event/serialize.py:42-56 | an entry is in the flattened tag list iff it is `"k:v"` for some key `k` and some value `v` of `k` |
| CodecProperties.TagKeysDiffer | event_tracking/db/event/serialize.py:53-54 | colon-free distinct keys never give the same entry |
| CodecProperties.EncodeReservedEntries | event_tracking/db/event/serialize.py:19-22 | with colon-free, non-reserved user keys, `source_id:v` is stored iff the source id is the non-empty `v`; likewise `parent_id` |
| CodecProperties.EncodeSourceOnly | event_tracking/db/event/serialize.py:14-22 | a record with source id "123" and no tags gives exactly `["source_id:123"]` |
| CodecProperties.EncodeTime | event_tracking/db/event/serialize.py:27-31 | the time array is the set times in start/end order, `None`s dropped |
| CodecProperties.EncodeClockOnlyStampsUpdateTime | event_tracking/db/event/serialize.py:37 | two encodings differ only in `update_time`, which is the clock |
| Codec.SplitFirstColon | event_tracking/db/event/deserialize.py:49 | fails iff there is no colon; otherwise the key is colon-free and `key:value` is the entry |
| Codec.SplitTag | event_tracking/db/event/deserialize.py:49 | a colon-free key is recovered exactly, whatever colons the value holds |
| Codec.Step | event_tracking/db/event/deserialize.py:48-55 | one entry fails iff it has no colon, always with the tag-format error; a reserved key sets its field without touching the tags dict, any other key leaves both reserved fields alone |
| Codec.Fold | event_tracking/db/event/deserialize.py:47-55 | the loop's only error is the tag-format one |
| Codec.FoldFailsIff | event_tracking/db/event/deserialize.py:47-49 | the extraction loop fails iff some entry has no colon, whatever it extracted before |
| Codec.ExtractTags | event_tracking/db/event/deserialize.py:39-60 | the tag extraction fails iff some entry has no colon; a missing or empty list extracts nothing |
| CodecProperties.SplitsOnFirstColonOnly | event_tracking/db/event/deserialize.py:49 | `"action:deploy-host-end:success"` splits into `action` and `deploy-host-end:success` |
| CodecProperties.FoldAppend | event_tracking/db/event/deserialize.py:47-55 | the extraction loop over a concatenation is the loop over the first part, continued on the second; a failure stops it |
| CodecProperties.FoldRejectsColonless | event_tracking/db/event/deserialize.py:48-49 | one entry without a colon fails the whole loop |
| CodecProperties.DecodeRejectsColonlessTag | event_tracking/db/event/deserialize.py:47-55 | a document with a colon-free tag entry does not decode |
| Codec.ExtractTime | event_tracking/db/event/deserialize.py:63-75 | fails iff more than two times; an empty or missing array sets neither time; one time sets both; two set start and end |
| CodecProperties.DecodeRejectsLongTime | event_tracking/db/event/deserialize.py:70-71 | three or more times fail decoding |
| Codec.Decode | event_tracking/db/event/deserialize.py:13-36 | a decoded record has an id (the document's `_id` when present), tags and aligned times, and keeps description and detail_urls; decoding fails iff a tag entry has no colon or the time array has more than two entries |
| CodecProperties.DecodeNothing | event_tracking/db/event/deserialize.py:17-36 | a missing document and an empty one decode alike, to the constructor's defaults |
| CodecProperties.FoldKeepsReservedOut | event_tracking/db/event/deserialize.py:51-55 | reserved keys never reach the tags dict |
| CodecProperties.DecodedTagsHaveNoReservedKey | event_tracking/db/event/deserialize.py:51-58 | no decoded tag key is `source_id` or `parent_id` |
| CodecProperties.FoldKeepsSourceId | event_tracking/db/event/deserialize.py:51-52 | entries without a `source_id` key leave the extracted source id alone |
| CodecProperties.DecodeLastSourceIdWins | event_tracking/db/event/deserialize.py:51-52 | with several `source_id:` entries the last one is the record's source id |
| CodecProperties.FoldValueEntries | event_tracking/db/event/deserialize.py:53-55 | the entries of one user key append its values, in order, under that key |
| CodecProperties.FoldFlatten | event_tracking/db/event/deserialize.py:47-58 | the flattened entries of a recoverable dict rebuild that dict, key order included |
| CodecProperties.FoldReserved | event_tracking/db/event/deserialize.py:51-52 | the injected entries restore the truthy source and parent ids |
| CodecProperties.RoundTrip | event_tracking/db/event/serialize.py:6-39 | decoding an encoded record gives it back, whatever the clocks and id factory, when it has an id, aligned times, colon-free non-reserved distinct keys with non-empty lists, and source/parent ids absent or non-empty |
| Codec.TruncateAll | event_tracking/models/eventdb.py:11 | each element of `time` is truncated, position by position |
| Codec.ConvertEventDB | event_tracking/models/eventdb.py:7-14 | the schema accepts iff `_id`, `time` and `update_time` are present; only `time` is truncated, `update_time` keeps full precision |
| CodecProperties.EncodeSatisfiesSchema | event_tracking/models/eventdb.py:9-14 | every encoded record with an id satisfies the schema, unchanged when its times are aligned |
| Store.Select | event_tracking/db/event/__init__.py:36 | a query returns a subsequence of the collection holding exactly the documents its condition keeps |
| Store.LastMatch | event_tracking/db/event/__init__.py:36-38 | the cursor loop keeps the last document with the id, and finds none iff none is stored |
| Store.FindById | event_tracking/db/event/__init__.py:34-41 | `NotFound` iff no document has the id; a found record has that id and aligned times; any other failure is a corrupt document |
| StoreProperties.FindAt | event_tracking/db/event/__init__.py:34-41 | in a well-formed collection the record found under an id is the decoding of the one document with that id |
| Store.Replacement | event_tracking/db/event/__init__.py:43-46 | the replacement is the encoded record under the queried `_id`; a record naming another id is refused |
| Store.UpdateById | event_tracking/db/event/__init__.py:43-47 | replaces the first document with the id in place; a missing id writes nothing, or with `insert` appends the replacement |
| StoreProperties.UpdateThenFind | event_tracking/db/event/__init__.py:43-47 | writing an encodable record under its id and reading the id gives the record back |
| StoreProperties.UpdateNothingStaysMissing | event_tracking/db/event/__init__.py:43-47 | without `insert`, updating a missing id changes nothing and the id stays unfindable |
| StoreProperties.UpdateLeavesOthers | event_tracking/db/event/__init__.py:43-47 | a write under one id leaves every other id's read unchanged |
| Store.UpdateByIdKeepsWellFormed | event_tracking/db/event/__init__.py:43-47 | updates keep ids present and distinct |
| Store.Save | event_tracking/db/event/__init__.py:25-28 | a record with an id is upserted; one without gets a fresh `_id`, refused if taken; the collection grows by at most one |
| Store.SaveKeepsWellFormed | event_tracking/db/event/__init__.py:25-28 | saves keep ids present and distinct |
| StoreProperties.SaveThenFind | event_tracking/db/event/__init__.py:25-28 | a saved encodable record is found under its id |
| Store.DeleteById | event_tracking/db/event/__init__.py:107-111 | removes exactly the documents with the id; false (and nothing removed) iff none had it; true when one was removed |
| Store.AtMostOneMatch | event_tracking/db/event/__init__.py:107-111 | in a well-formed collection at most one document is removed, so the count lookup never fails |
| Store.DeleteByIdWellFormed | event_tracking/db/event/__init__.py:107-111 | on a well-formed collection the result is true iff the id was stored, and the collection stays well formed |
| StoreProperties.DeleteThenFind | event_tracking/db/event/__init__.py:107-111 | after deleting an id it is not found |
| Store.DecodeAll | event_tracking/db/event/__init__.py:52 | the cursor decodes every document in order, and fails iff one of them does not decode |
| Store.DecodedAreFromCollection | event_tracking/db/event/__init__.py:50-52 | every record a query yields is the decoding of a stored document the query keeps |
| Store.FindByParentId | event_tracking/db/event/__init__.py:49-52 | position by position, the decodings of the documents whose tags hold `parent_id:p`, in collection order; fails iff one of those documents does not decode |
| Store.ParentTag | event_tracking/db/event/__init__.py:51 | the parent tag decodes back to the `parent_id` key and the given id, whatever colons the id holds |
| StoreProperties.FindByParentIdCovers | event_tracking/db/event/__init__.py:49-52 | every stored document tagged `parent_id:p` decodes to a record among `p`'s children |
| StoreProperties.EncodedChildTag | event_tracking/db/event/__init__.py:50-51 | a stored record is among `p`'s children iff its parent id is the non-empty `p` |
| Store.TimeValues | event_tracking/db/event/__init__.py:63 | the time field is `update_time` when asked for, otherwise the time array |
| Store.HasAllTags | event_tracking/db/event/__init__.py:65-66 | `$all`: every requested tag is in the document's tag list; an empty request or a missing list matches nothing |
| Store.SomeAtOrAfter | event_tracking/db/event/__init__.py:67-68 | `$gte`: some value of the time field is at or after the bound |
| Store.SomeBefore | event_tracking/db/event/__init__.py:69-73 | `$lt`: some value of the time field is before the bound |
| Store.MatchesQuery | event_tracking/db/event/__init__.py:63-74 | a document matches when it passes each condition that was given: tags, lower bound, upper bound |
| StoreProperties.RangeBounds | event_tracking/db/event/__init__.py:68-74 | on a single time `t`, the range condition holds iff `frm <= t < to` |
| StoreProperties.RangeOnUpdateTime | event_tracking/db/event/__init__.py:63-74 | with `use_update_time` the range applies to `update_time` |
| StoreProperties.EmptyTagListFindsNothing | event_tracking/db/event/__init__.py:66-67 | `$all` with an empty list matches nothing |
| Store.SortKeyIsGreatest | event_tracking/db/event/__init__.py:75 | a document sorts by the greatest value of its time field; missing or empty sorts lowest |
| Store.Insert | event_tracking/db/event/__init__.py:75 | inserting into a descending list keeps it descending and adds exactly one document |
| Store.SortBy | event_tracking/db/event/__init__.py:75 | the sort is a permutation into descending order of the key |
| Store.Page | event_tracking/db/event/__init__.py:75-76 | skip `(page-1)*count`, then at most `count` (all when 0), the documents at consecutive positions |
| StoreProperties.PagesCover | event_tracking/db/event/__init__.py:75-76 | pages of a positive size tile the sorted results: position `i` is on page `i / count + 1` |
| StoreProperties.UnboundedFirstPage | event_tracking/db/event/__init__.py:75-76 | `count == 0` on page 1 returns every match |
| Store.Find | event_tracking/db/event/__init__.py:54-77 | negative count, then page below one, are errors; on success the records are, position by position, the decodings of the requested page of the matches sorted by time |
| StoreProperties.FindResults | event_tracking/db/event/__init__.py:54-77 | the requested page is sorted by the time key, holds only stored documents that match the query, and is the slice of the sorted matches starting after the skipped ones |
| Graph.Walk | event_tracking/db/event/__init__.py:94-105 | the walk is a chain: each record is the lookup of the previous one's parent id; it stops at no parent or a missing one, or at the bound; other lookup errors propagate |
| Graph.WalkIsChain | event_tracking/db/event/__init__.py:98-102 | with a lookup that returns the id asked for, the first record has the start id and each next one's id is the previous one's parent id |
| Graph.WalkErrors | event_tracking/db/event/__init__.py:99-104 | a missing id ends the walk; it fails only with another lookup error |
| Graph.Trace | event_tracking/db/event/__init__.py:94-105 | `trace` over the store: starts at the id, follows parent ids, fails only on a corrupt document |
| Graph.WalkCutAtBound | event_tracking/db/event/__init__.py:98-102 | a chain at least as long as the bound is cut at exactly the bound |
| Graph.WalkStable | event_tracking/db/event/__init__.py:94-105 | a walk that ended before its bound gives the same answer with any larger bound, so it is the unbounded loop's answer |
| Graph.WalkStopsAtMissingParent | event_tracking/db/event/__init__.py:102-104 | a found record whose parent is absent or unfindable is the whole trace |
| Graph.IdText | event_tracking/db/event/__init__.py:51 | the id as formatted into the parent tag; a missing id is "None" |
| Graph.Dedup | event_tracking/db/event/__init__.py:87-90 | children are appended only if not already there: no repeats, same members, in the order of their first occurrence |
| Graph.DedupExample | event_tracking/db/event/__init__.py:87-90 | a child found twice keeps its first place: `[b, c, b]` gives `[b, c]` |
| Graph.DedupDistinct | event_tracking/db/event/__init__.py:89-90 | a child list without repeats is kept as it is |
| Graph.FirstOccurrencesUnique | event_tracking/db/event/__init__.py:87-90 | only one list holds each event of a child list once in first-occurrence order, so that order fixes the children |
| Graph.BuildNode | event_tracking/db/event/__init__.py:84-91 | a node's children are exactly the distinct records found under its id, each once, in the order first found |
| Graph.BuildForest | event_tracking/db/event/__init__.py:87-91 | sibling subtrees keep the children's order |
| Graph.BuildNodeErrors | event_tracking/db/event/__init__.py:84-91 | building fails only with a corrupt child document |
| Graph.GetTree | event_tracking/db/event/__init__.py:79-92 | `NotFound` iff the root id is not stored; the root is the record found under the id |
| Graph.BuildNodeWellBuilt | event_tracking/db/event/__init__.py:79-92 | every node of a built tree, down to the bound, has as children exactly its distinct found children in first-found order |
| Graph.WellBuiltUnique | event_tracking/db/event/__init__.py:79-92 | two trees of that shape with the same root are equal, so the built tree is the only one |
| Graph.BuildNodeStable | event_tracking/db/event/__init__.py:84-91 | below an event whose descendants end within the bound, a larger bound builds the same tree |
| Graph.GetTreeStable | event_tracking/db/event/__init__.py:79-92 | `get_tree` on a root whose descendants end within the bound succeeds and gives the same tree under any larger bound |
| Graph.LeafHasNoChildren | event_tracking/db/event/__init__.py:86-90 | a record with no children found is a leaf |
| Reconcile.Strip | event_tracking/routes/event.py:240-241 | `strip()`: the result is trimmed and sits between a whitespace prefix and a whitespace suffix of the input |
| Reconcile.StripOf | event_tracking/routes/event.py:240-241 | that decomposition determines the result: whitespace + trimmed text + whitespace strips to the text |
| Reconcile.StripIdempotent | event_tracking/routes/event.py:240-241 | stripping twice is stripping once |
| Reconcile.IsSubstringIff | event_tracking/routes/event.py:242 | `a in b` holds iff `a` occurs at some position of `b` |
| Reconcile.MergeDescription | event_tracking/routes/event.py:238-243 | both stripped texts occur in the merged description; a blank or already contained incoming text leaves it untouched, otherwise the stripped incoming text goes on a new line after the stripped existing text |
| Reconcile.MergeDescriptionSelf | event_tracking/routes/event.py:238-243 | merging a description into itself changes nothing |
| Reconcile.MergeDescriptionIdempotent | tycho/routes/event.py:243-249 | merging the same description a second time changes nothing more |
| Reconcile.OverlayUrls | event_tracking/routes/event.py:245-249 | incoming labels with a URL are set or overwritten; every other label keeps its URL; no other label appears |
| Reconcile.OverlaySelf | event_tracking/routes/event.py:245-249 | overlaying a URL dict on itself changes nothing |
| Reconcile.OverlayIdempotent | tycho/routes/event.py:251-255 | overlaying the same labels twice is overlaying once |
| Reconcile.NewValues | event_tracking/routes/event.py:272-274 | the reference filter: a value is kept iff it is incoming and not existing, each once |
| Reconcile.UnionValues | event_tracking/routes/event.py:272-274 | the result is the existing list followed by `NewValues`: the incoming values not in the existing list, each at its first occurrence, in incoming order; it holds exactly the values of both lists |
| Reconcile.UnionValuesAppendsNoRepeat | tycho/routes/event.py:277-280 | the appended values are distinct and none is already in the existing list, whatever repeats that list holds |
| Reconcile.UnionValuesExample | event_tracking/routes/event.py:268-274 | `["Fred","Sean"]` with `["Fred","Mayur"]` gives `["Fred","Sean","Mayur"]` |
| Reconcile.UnionValuesCovered | event_tracking/routes/event.py:272-274 | values already present are not appended again |
| Reconcile.UnionTags | event_tracking/routes/event.py:257-276 | existing keys keep their order at the front; the keys are those of both dicts; a dict stays a dict |
| Reconcile.UnionTagsLookup | event_tracking/routes/event.py:268-274 | read key by key: a key on one side keeps its list, a key on both gets the union of the lists |
| Reconcile.UnionTagsCovers | tycho/routes/event.py:274-280 | after the union every incoming value is stored under its key |
| Reconcile.UnionTagsCovered | tycho/routes/event.py:274-280 | a union bringing no new key or value changes nothing, key order included |
| Reconcile.UnionTagsSelf | tycho/routes/event.py:263-282 | a dict with distinct keys merged with itself is unchanged |
| Reconcile.UnionTagsIdempotent | tycho/routes/event.py:263-282 | merging the same tags twice is merging once |
| Reconcile.Merge | event_tracking/routes/event.py:191-211 | fails iff id, source id or parent id are present on both and differ; otherwise a field the incoming record lacks is kept, one only it has is adopted, and one both have is combined: earlier start, later end, description merge, URL overlay, tag union |
| Reconcile.Clashes | event_tracking/routes/event.py:250-254 | a reserved field clashes when both records carry it and the values differ (tycho/routes/event.py:256-260 tests the same, with its own notion of presence) |
| Reconcile.Earlier | event_tracking/routes/event.py:226-229 | the earlier of two times |
| Reconcile.Later | event_tracking/routes/event.py:231-236 | the later of two times |
| Reconcile.MergeSelf | tycho/routes/event.py:195-260 | merging a record into itself gives it back |
| Reconcile.MergeIdempotent | event_tracking/routes/event.py:191-254 | merging the same incoming record into the result again changes nothing |
| Reconcile.Update | event_tracking/routes/event.py:279-293 | field by field, the incoming value when set, otherwise the existing one; a complete incoming record replaces the existing one entirely; a complete existing record stays complete |
| Reconcile.UpdateWithBlank | event_tracking/routes/event.py:291-293 | an incoming record with no field set changes nothing |
| Reconcile.UpdateIdempotent | tycho/routes/event.py:297-299 | updating twice with the same record is updating once |
| Reconcile.UpdateAssociative | tycho/routes/event.py:297-299 | two successive updates equal one update with the second laid over the first |
| Reconcile.Validate | event_tracking/routes/event.py:172-175 | event_tracking refuses a record with no field set, then requires `validate()`; tycho requires its validators; a valid record has an id |
| Reconcile.Reconciled | event_tracking/routes/event.py:179-186 | a missing id yields the incoming record; a stored one is merged or updated; the id is the incoming one |
| Reconcile.PostEvent | event_tracking/routes/event.py:172-188 | validation errors first, then an unsupported operation; on success the reconciled record is written with `update_by_id` under the incoming id |
| Reconcile.PostMissingWritesIncoming | event_tracking/routes/event.py:185-187 | an id not stored writes the incoming record, and without `insert` nothing |
| Reconcile.PostConflictWritesNothing | event_tracking/routes/event.py:179-187 | a merge conflict fails the request before `update_by_id` |
| Reconcile.PostUpdateWritesComplete | tycho/routes/event.py:180-192 | on tycho, `update` with a complete record writes that record |
| Reconcile.PostThenFind | event_tracking/routes/event.py:187-188 | the record `post_event` returns is what `find_by_id` reads back |
| Reconcile.PostMergeTwice | tycho/routes/event.py:180-192 | posting the same record with `merge` a second time succeeds and returns the record the first post wrote |

## Left out

- I/O, aiohttp routing, Swagger descriptions and the HTTP handlers other than `post_event`'s dispatch are not modelled. Neither is logging (`log_events`) or the diagram route.
- The clock (`datetime.utcnow`) and the id generator (`uuid4`) are parameters (`now`, `uuid`, `freshId`).
- Time zone conversion in `ignore_microseconds` (pytz localisation to UTC) is left out. Instants are UTC microseconds from the start.
- Python's `datetime` range limits are left out.
- MongoDB itself is abstracted, with the following choices:
  - the collection is a sequence of documents;
  - a query is a filter on it;
  - range conditions on the time array hold when some element satisfies each bound;
  - `$all` with an empty list matches nothing;
  - the descending sort uses the greatest element of the array, with a missing field lowest.
- Store.SortBy: ties are kept in natural order, which MongoDB does not promise. The contract states only the order and the permutation.
- Store.Save: refuses a generated `_id` that is already taken. The driver would raise a duplicate-key error there, and the model does not name that error further.
- Store.UpdateById: refuses a record whose own id differs from the queried one, as the server refuses to alter `_id`. The server's exact message is not modelled.
- The async cursor wrapper (`async_generator`), the indexes and the connection setup are left out.
- Graph.Trace: `trace` has no bound in event_tracking and loops forever on a cycle of parent ids. The model takes a `fuel` bound; `Graph.WalkStable` shows that any bound above the chain's length gives the unbounded answer. The value of tycho's `MAX_RECURSIVE_DEPTH` is not part of this model.
- Graph.GetTree: `get_tree` visits breadth first without a bound, and loops forever on a cycle of parent ids. The model recurses depth first with a `depth` bound, and cuts the tree after `depth` levels. `Graph.GetTreeStable` shows that when no descendant lies deeper than the bound (`Graph.Exhausted`), any larger bound gives the same tree, which is then the unbounded answer. When two child lookups would fail, the error reported may come from a different one. The duplicate child nodes the source enqueues and expands again are detached from the tree and are not expanded.
- `EventNode` equality is taken to be equality of events. The source compares nodes while their children are still empty.
- Reconcile.Validate: `_update` of event_tracking calls `validate()` again on a record already validated, which cannot fail then, so the second call is not modelled. The JSON parsing that builds the record is left out.
- `None` and a missing key are the same in the model. Schematics keeps them apart in `to_native`, and so does the decoder for `_id`: a stored `_id` of `None` becomes the id "None" (event_tracking/db/event/deserialize.py:27-28), where the model decodes it as a missing `_id` and takes a fresh one. The encoder never writes such a document (`Store.WellFormed` excludes it). For every other field the code paths modelled here treat `None` and a missing key alike.
- detail_urls is an unordered map (`Records.Urls`). Python's dict keeps insertion order: `_merge` adds labels new to the existing dict at its end, and the encoder copies the dict as it is. The model promises nothing about label order.
- Strings are sequences of code points. `strip()` uses exactly Python's `str.isspace` set (`Reconcile.IsSpace`); no normalisation or case folding is modelled.
- The tycho database layer is not part of this model. tycho's routes are modelled over the same store as event_tracking's.
- `to_primitive`, `_mock`, `find_one` and the `EventsWithCount` wrapper are not modelled.
- Concurrency (two requests racing on the same id) is left out. The model is sequential.

=== FILE: codec.dfy ===
/** The tag codec: an Event record <-> the flat storage document
    (`serialize_to_db_event` / `deserialize_db_event`), and the `EventDB`
    schema of that document. */
module Codec {
  import opened Wrappers
  import opened Timestamps
  import opened TagMap
  import opened Records

  /** The storage document. `None` is a missing key (or a null value, which
      every reader treats the same way). */
  datatype StorageDoc = StorageDoc(
    id: Option<string>,
    tags: Option<seq<string>>,
    time: Option<seq<Time>>,
    detailUrls: Option<Urls>,
    description: Option<string>,
    updateTime: Option<Time>)

  const EmptyDoc := StorageDoc(None, None, None, None, None, None)

  datatype DecodeError = InvalidTagFormat | InvalidTimeArray

  const SourceIdKey: string := "source_id"
  const ParentIdKey: string := "parent_id"

  /** The two record fields stored as tag entries. */
  predicate IsReserved(k: string) {
    k == SourceIdKey || k == ParentIdKey
  }

  /** `"{key}:{value}"`. */
  function Tag(k: string, v: string): string {
    k + ":" + v
  }

  // ---------------------------------------------------------------- encode

  /** The entries of one key, one per value, in list order. */
  function ValueEntries(k: string, vs: seq<string>): (r: seq<string>)
    ensures |r| == |vs|
    ensures forall j :: 0 <= j < |vs| ==> r[j] == Tag(k, vs[j])
  {
    if |vs| == 0 then [] else ValueEntries(k, vs[..|vs| - 1]) + [Tag(k, vs[|vs| - 1])]
  }

  /** The number of values in a tags dict. */
  function TotalValues(t: Tags): nat {
    if |t| == 0 then 0 else |t[0].1| + TotalValues(t[1..])
  }

  /** `_get_tags`: for each key in dict order, for each of its values in
      list order, one `"key:value"` entry. */
  function Flatten(t: Tags): (r: seq<string>)
    ensures |r| == TotalValues(t)
  {
    if |t| == 0 then [] else ValueEntries(t[0].0, t[0].1) + Flatten(t[1..])
  }

  /** Python truthiness of an optional string. */
  predicate Truthy(o: Option<string>) {
    o.Some? && o.value != ""
  }

  /** The synthesized `source_id:` then `parent_id:` entries; each only
      when that field is truthy. */
  function ReservedEntries(e: Event): (r: seq<string>)
    ensures |r| <= 2
    // one entry per truthy field, source id first and parent id last
    ensures |r| == (if Truthy(e.sourceId) then 1 else 0) + (if Truthy(e.parentId) then 1 else 0)
    ensures Truthy(e.sourceId) ==> r[0] == Tag(SourceIdKey, e.sourceId.value)
    ensures Truthy(e.parentId) ==> r[|r| - 1] == Tag(ParentIdKey, e.parentId.value)
  {
    (if Truthy(e.sourceId) then [Tag(SourceIdKey, e.sourceId.value)] else [])
    + (if Truthy(e.parentId) then [Tag(ParentIdKey, e.parentId.value)] else [])
  }

  /** `[start_time, end_time]` with the `None`s dropped. */
  function TimeArray(e: Event): (r: seq<Time>)
    ensures |r| <= 2
    ensures |r| == 2 <==> e.startTime.Some? && e.endTime.Some?
    ensures |r| == 2 ==> r == [e.startTime.value, e.endTime.value]
  {
    (if e.startTime.Some? then [e.startTime.value] else [])
    + (if e.endTime.Some? then [e.endTime.value] else [])
  }

  /** `serialize_to_db_event`. `now` stands for `datetime.utcnow()`. */
  function Encode(e: Event, now: Time): (d: StorageDoc)
    ensures d.id == e.id
    ensures d.tags.Some? && d.time.Some?
    ensures |d.time.value| <= 2
    ensures d.detailUrls == e.detailUrls && d.description == e.description
    ensures d.updateTime == Some(now)
  {
    StorageDoc(
      e.id,
      Some(Flatten(e.tags.GetOr([])) + ReservedEntries(e)),
      Some(TimeArray(e)),
      e.detailUrls,
      e.description,
      Some(now))
  }

  // ---------------------------------------------------------------- decode

  /** Index of the first colon. */
  function ColonIndex(s: string): (r: Option<nat>)
    ensures r.None? <==> ':' !in s
    ensures r.Some? ==> r.value < |s| && s[r.value] == ':' && ':' !in s[..r.value]
  {
    if |s| == 0 then None
    else if s[0] == ':' then Some(0)
    else match ColonIndex(s[1..])
      case None => None
      case Some(i) =>
        assert s[..i + 1] == [s[0]] + s[1..][..i];
        Some(i + 1)
  }

  /** `doc.split(':', 1)` unpacked into two names: fails without a colon. */
  function SplitFirstColon(s: string): (r: Option<(string, string)>)
    ensures r.None? <==> ':' !in s
    ensures r.Some? ==> ':' !in r.value.0 && s == Tag(r.value.0, r.value.1)
  {
    match ColonIndex(s)
    case None => None
    case Some(i) =>
      assert s == s[..i] + ":" + s[i + 1..];
      Some((s[..i], s[i + 1..]))
  }

  /** A colon-free key is recovered exactly, whatever colons the value holds. */
  lemma SplitTag(k: string, v: string)
    requires ':' !in k
    ensures SplitFirstColon(Tag(k, v)) == Some((k, v))
  {
    var s := Tag(k, v);
    assert s[|k|] == ':' && s[..|k|] == k;
    var i := ColonIndex(s).value;
    assert i == |k|;
    assert s[i + 1..] == v;
  }

  /** The state `_extract_tags` builds: the promoted reserved fields and the
      `defaultdict(list)` of the other keys. */
  datatype Extracted = Extracted(sourceId: Option<string>, parentId: Option<string>, tags: Tags)

  const NothingExtracted := Extracted(None, None, [])

  /** One iteration of the `_extract_tags` loop. */
  function Step(acc: Extracted, entry: string): (r: Result<Extracted, DecodeError>)
    // fails exactly on an entry without a colon
    ensures r.Failure? <==> ':' !in entry
    ensures r.Failure? ==> r.error == InvalidTagFormat
    // a reserved entry never reaches the tags dict; any other entry leaves
    // both reserved fields alone
    ensures r.Success? && IsReserved(SplitFirstColon(entry).value.0) ==> r.value.tags == acc.tags
    ensures r.Success? && !IsReserved(SplitFirstColon(entry).value.0) ==>
              r.value.sourceId == acc.sourceId && r.value.parentId == acc.parentId
  {
    match SplitFirstColon(entry)
    case None => Failure(InvalidTagFormat)
    case Some((k, v)) =>
      if k == SourceIdKey then Success(acc.(sourceId := Some(v)))
      else if k == ParentIdKey then Success(acc.(parentId := Some(v)))
      else Success(acc.(tags := AppendValue(acc.tags, k, v)))
  }

  /** The `_extract_tags` loop over a list of entries, from a given state. */
  function Fold(acc: Extracted, entries: seq<string>): (r: Result<Extracted, DecodeError>)
    // the only error the loop raises is the tag-format one
    ensures r.Failure? ==> r.error == InvalidTagFormat
    decreases |entries|
  {
    if |entries| == 0 then Success(acc)
    else match Step(acc, entries[0])
      case Failure(err) => Failure(err)
      case Success(acc') => Fold(acc', entries[1..])
  }

  /** The loop fails exactly when some entry has no colon to split at. */
  lemma {:induction false} FoldFailsIff(acc: Extracted, entries: seq<string>)
    ensures Fold(acc, entries).Failure? <==> exists i :: 0 <= i < |entries| && ':' !in entries[i]
    decreases |entries|
  {
    if |entries| > 0 {
      var head, tail := entries[0], entries[1..];
      var r := Step(acc, head);
      assert r.Failure? <==> ':' !in head;
      if r.Success? {
        FoldFailsIff(r.value, tail);
        assert Fold(acc, entries) == Fold(r.value, tail);
        if exists i :: 0 <= i < |tail| && ':' !in tail[i] {
          var i :| 0 <= i < |tail| && ':' !in tail[i];
          assert entries[i + 1] == tail[i];
        }
        if exists i :: 0 <= i < |entries| && ':' !in entries[i] {
          var i :| 0 <= i < |entries| && ':' !in entries[i];
          assert i != 0 && tail[i - 1] == entries[i];
        }
      } else {
        assert ':' !in entries[0];
      }
    }
  }

  /** `_extract_tags`: a missing or empty list extracts nothing; otherwise
      the loop fails exactly on an entry without a colon. */
  function ExtractTags(tags: Option<seq<string>>): (r: Result<Extracted, DecodeError>)
    ensures r.Failure? <==> tags.Some? && exists i :: 0 <= i < |tags.value| && ':' !in tags.value[i]
    ensures tags.None? || |tags.value| == 0 ==> r == Success(NothingExtracted)
  {
    if tags.None? || |tags.value| == 0 then Success(NothingExtracted)
    else
      FoldFailsIff(NothingExtracted, tags.value);
      Fold(NothingExtracted, tags.value)
  }

  /** `_extract_time`: interprets the time array by its length. */
  function ExtractTime(time: Option<seq<Time>>): (r: Result<(Option<Time>, Option<Time>), DecodeError>)
    ensures r.Failure? <==> time.Some? && |time.value| > 2
    ensures r.Success? ==> (r.value.0.Some? <==> time.Some? && |time.value| > 0)
    ensures r.Success? ==> (r.value.1.Some? <==> r.value.0.Some?)
    ensures r.Success? && r.value.0.Some? ==>
              time.Some? && r.value.0.value == time.value[0] && r.value.1.value == time.value[|time.value| - 1]
  {
    if time.None? || |time.value| == 0 then Success((None, None))
    else if |time.value| > 2 then Failure(InvalidTimeArray)
    else if |time.value| == 2 then Success((Some(time.value[0]), Some(time.value[1])))
    else Success((Some(time.value[0]), Some(time.value[0])))
  }

  /** `deserialize_db_event`. A missing or empty document gives the default
      record; otherwise tags are extracted first, then the time array, and
      `Event(new_event)` applies the constructor defaults and truncation.
      `uuid` and `now` stand for the default factories. */
  function Decode(doc: Option<StorageDoc>, uuid: string, now: Time): (r: Result<Event, DecodeError>)
    // a stored document decodes unless a tag entry has no colon or the
    // time array holds more than two times
    ensures r.Failure? <==>
              doc.Some?
              && ((doc.value.tags.Some? && exists i :: 0 <= i < |doc.value.tags.value| && ':' !in doc.value.tags.value[i])
                  || (doc.value.time.Some? && |doc.value.time.value| > 2))
    ensures r.Success? ==> TimesAligned(r.value) && r.value.id.Some? && r.value.tags.Some?
    ensures r.Success? && doc.Some? && doc.value.id.Some? ==> r.value.id == doc.value.id
    ensures r.Success? && doc.Some? ==>
              r.value.description == doc.value.description && r.value.detailUrls == doc.value.detailUrls
  {
    if doc.None? || doc.value == EmptyDoc then
      Success(NewTrackingEvent(Event(None, None, None, None, None, None, None, None), uuid, now))
    else
      var d := doc.value;
      match ExtractTags(d.tags)
      case Failure(err) => Failure(err)
      case Success(x) =>
        match ExtractTime(d.time)
        case Failure(err) => Failure(err)
        case Success(times) =>
          var args := Event(d.id, x.sourceId, x.parentId, times.0, times.1,
                            d.description, d.detailUrls,
                            if |x.tags| > 0 then Some(x.tags) else None);
          Success(NewTrackingEvent(args, uuid, now))
  }

  // ---------------------------------------------------------------- EventDB

  datatype SchemaError = MissingId | MissingTime | MissingUpdateTime

  function TruncateAll(ts: seq<Time>): (r: seq<Time>)
    ensures |r| == |ts|
    ensures forall i :: 0 <= i < |ts| ==> r[i] == IgnoreMicroseconds(ts[i])
  {
    if |ts| == 0 then [] else [IgnoreMicroseconds(ts[0])] + TruncateAll(ts[1..])
  }

  /** The `EventDB` schema: `_id`, `time` and `update_time` are required;
      converting the document truncates the `time` elements to milliseconds
      and keeps `update_time` at full precision. */
  function ConvertEventDB(d: StorageDoc): (r: Result<StorageDoc, SchemaError>)
    ensures r.Success? <==> d.id.Some? && d.time.Some? && d.updateTime.Some?
    ensures r.Success? ==> r.value.time.Some? && |r.value.time.value| == |d.time.value|
    ensures r.Success? ==> forall i :: 0 <= i < |d.time.value| ==>
              IsMillisecondAligned(r.value.time.value[i])
              && r.value.time.value[i] <= d.time.value[i] < r.value.time.value[i] + MicrosPerMilli
    ensures r.Success? ==> r.value.(time := d.time) == d
  {
    if d.id.None? then Failure(MissingId)
    else if d.time.None? then Failure(MissingTime)
    else if d.updateTime.None? then Failure(MissingUpdateTime)
    else Success(d.(time := Some(TruncateAll(d.time.value))))
  }
}

=== FILE: codec_properties.dfy ===
/** Properties of the tag codec: what the encoder emits, how the decoder
    reads it, and the round trip between them. */
module CodecProperties {
  import opened Wrappers
  import opened Timestamps
  import opened TagMap
  import opened Records
  import opened Codec

  // ------------------------------------------------------------- the encoder

  /** Every value of every key is emitted as `"key:value"`, and nothing else
      is emitted, so a key with an empty value list contributes nothing. */
  lemma {:induction false} FlattenMembers(t: Tags, x: string)
    ensures x in Flatten(t) <==>
              exists i, j :: 0 <= i < |t| && 0 <= j < |t[i].1| && x == Tag(t[i].0, t[i].1[j])
  {
    if |t| > 0 {
      FlattenMembers(t[1..], x);
      var head := ValueEntries(t[0].0, t[0].1);
      assert Flatten(t) == head + Flatten(t[1..]);
      if x in head {
        var j :| 0 <= j < |head| && head[j] == x;
        assert 0 <= 0 < |t| && 0 <= j < |t[0].1| && x == Tag(t[0].0, t[0].1[j]);
      } else if x in Flatten(t[1..]) {
        var i, j :| 0 <= i < |t[1..]| && 0 <= j < |t[1..][i].1| && x == Tag(t[1..][i].0, t[1..][i].1[j]);
        assert t[1..][i] == t[i + 1];
      }
      if exists i, j :: 0 <= i < |t| && 0 <= j < |t[i].1| && x == Tag(t[i].0, t[i].1[j]) {
        var i, j :| 0 <= i < |t| && 0 <= j < |t[i].1| && x == Tag(t[i].0, t[i].1[j]);
        if i == 0 {
          assert head[j] == x;
        } else {
          assert t[1..][i - 1] == t[i];
        }
      }
    }
  }

  /** Entries with different colon-free keys never coincide. */
  lemma TagKeysDiffer(k: string, v: string, k': string, v': string)
    requires ':' !in k && ':' !in k' && k != k'
    ensures Tag(k, v) != Tag(k', v')
  {
    SplitTag(k, v);
    SplitTag(k', v');
  }

  /** Whether an entry carries a reserved field.  */
  predicate ReservedEntry(x: string) {
    SplitFirstColon(x).Some? && IsReserved(SplitFirstColon(x).value.0)
  }

  /** With colon-free, non-reserved user keys, the stored tag list carries
      `source_id:v` exactly when the record's source id is the non-empty v,
      and likewise for `parent_id`. */
  lemma EncodeReservedEntries(e: Event, now: Time, v: string)
    requires var t := e.tags.GetOr([]); forall i :: 0 <= i < |t| ==> ':' !in t[i].0 && !IsReserved(t[i].0)
    ensures Tag(SourceIdKey, v) in Encode(e, now).tags.value <==> e.sourceId == Some(v) && v != ""
    ensures Tag(ParentIdKey, v) in Encode(e, now).tags.value <==> e.parentId == Some(v) && v != ""
  {
    var t := e.tags.GetOr([]);
    FlattenMembers(t, Tag(SourceIdKey, v));
    FlattenMembers(t, Tag(ParentIdKey, v));
    forall i, j | 0 <= i < |t| && 0 <= j < |t[i].1|
      ensures Tag(t[i].0, t[i].1[j]) != Tag(SourceIdKey, v)
      ensures Tag(t[i].0, t[i].1[j]) != Tag(ParentIdKey, v)
    {
      TagKeysDiffer(t[i].0, t[i].1[j], SourceIdKey, v);
      TagKeysDiffer(t[i].0, t[i].1[j], ParentIdKey, v);
    }
    if e.sourceId.Some? { SplitTag(SourceIdKey, e.sourceId.value); SplitTag(SourceIdKey, v); }
    if e.parentId.Some? { SplitTag(ParentIdKey, e.parentId.value); SplitTag(ParentIdKey, v); }
    SplitTag(SourceIdKey, v);
    SplitTag(ParentIdKey, v);
    TagKeysDiffer(SourceIdKey, v, ParentIdKey, if e.parentId.Some? then e.parentId.value else "");
    TagKeysDiffer(ParentIdKey, v, SourceIdKey, if e.sourceId.Some? then e.sourceId.value else "");
  }

  /** A record with source id "123", no parent id and no tags is stored
      with exactly one tag entry. */
  lemma EncodeSourceOnly(e: Event, now: Time)
    requires e.sourceId == Some("123") && !Truthy(e.parentId)
    requires e.tags.None? || e.tags == Some([])
    ensures Encode(e, now).tags == Some(["source_id:123"])
  {
    assert Flatten(e.tags.GetOr([])) == [];
    assert ReservedEntries(e) == [Tag(SourceIdKey, "123")];
    assert Tag(SourceIdKey, "123") == "source_id:123";
    var one: seq<string> := ["source_id:123"];
    assert Encode(e, now).tags.value == [] + one;
    assert [] + one == one;
  }

  /** The time array is start then end with absent times dropped: `[]`,
      a single time, or `[start, end]`. */
  lemma EncodeTime(e: Event, now: Time)
    ensures var ts := Encode(e, now).time.value;
      && (e.startTime.None? && e.endTime.None? ==> ts == [])
      && (e.startTime.Some? && e.endTime.None? ==> ts == [e.startTime.value])
      && (e.startTime.None? && e.endTime.Some? ==> ts == [e.endTime.value])
      && (e.startTime.Some? && e.endTime.Some? ==> ts == [e.startTime.value, e.endTime.value])
  {
  }

  /** The only field that does not come from the record is `update_time`:
      encoding at two instants differs in that field alone. */
  lemma EncodeClockOnlyStampsUpdateTime(e: Event, now1: Time, now2: Time)
    ensures Encode(e, now1).(updateTime := None) == Encode(e, now2).(updateTime := None)
    ensures Encode(e, now1).updateTime == Some(now1)
  {
  }

  /** Every encoded record with an id satisfies the `EventDB` schema, and
      with aligned times the schema's conversion changes nothing. */
  lemma EncodeSatisfiesSchema(e: Event, now: Time)
    requires e.id.Some?
    ensures ConvertEventDB(Encode(e, now)).Success?
    ensures TimesAligned(e) ==> ConvertEventDB(Encode(e, now)) == Success(Encode(e, now))
  {
    if TimesAligned(e) {
      var d := Encode(e, now);
      IgnoreMicrosecondsFixesAligned(e.startTime.value);
      IgnoreMicrosecondsFixesAligned(e.endTime.value);
      assert TruncateAll(d.time.value) == d.time.value;
    }
  }

  // ------------------------------------------------------------- the decoder

  /** The fold over a concatenation is the fold over its parts. */
  lemma {:induction false} FoldAppend(acc: Extracted, a: seq<string>, b: seq<string>)
    ensures Fold(acc, a).Failure? ==> Fold(acc, a + b) == Fold(acc, a)
    ensures Fold(acc, a).Success? ==> Fold(acc, a + b) == Fold(Fold(acc, a).value, b)
    decreases |a|
  {
    if |a| == 0 {
      assert a + b == b;
    } else {
      assert (a + b)[0] == a[0] && (a + b)[1..] == a[1..] + b;
      var r := Step(acc, a[0]);
      if r.Success? {
        FoldAppend(r.value, a[1..], b);
      }
    }
  }

  /** A value keeps its colons: only the first one separates key from value. */
  lemma SplitsOnFirstColonOnly()
    ensures SplitFirstColon("action:deploy-host-end:success") == Some(("action", "deploy-host-end:success"))
  {
    assert "action:deploy-host-end:success" == Tag("action", "deploy-host-end:success");
    SplitTag("action", "deploy-host-end:success");
  }

  /** Any entry without a colon makes the whole fold fail. */
  lemma {:induction false} FoldRejectsColonless(acc: Extracted, entries: seq<string>, i: nat)
    requires i < |entries| && ':' !in entries[i]
    ensures Fold(acc, entries) == Failure(InvalidTagFormat)
    decreases |entries|
  {
    var r := Step(acc, entries[0]);
    if i == 0 {
      assert r == Failure(InvalidTagFormat);
    } else if r.Success? {
      assert entries[1..][i - 1] == entries[i];
      FoldRejectsColonless(r.value, entries[1..], i - 1);
    } else {
      assert r == Failure(InvalidTagFormat);
    }
  }

  /** A non-empty document holding a tag entry without a colon does not
      decode. */
  lemma DecodeRejectsColonlessTag(d: StorageDoc, uuid: string, now: Time, i: nat)
    requires d.tags.Some? && i < |d.tags.value| && ':' !in d.tags.value[i]
    ensures Decode(Some(d), uuid, now) == Failure(InvalidTagFormat)
  {
    FoldRejectsColonless(NothingExtracted, d.tags.value, i);
  }

  /** A time array of more than two elements does not decode. */
  lemma DecodeRejectsLongTime(d: StorageDoc, uuid: string, now: Time)
    requires d.time.Some? && |d.time.value| > 2
    ensures Decode(Some(d), uuid, now).Failure?
  {
  }

  /** A missing document and an empty one both decode to the default record:
      the generated id, the truncated current time for both times, an empty
      tags dict and nothing else set. */
  lemma DecodeNothing(uuid: string, now: Time)
    ensures Decode(None, uuid, now) == Decode(Some(EmptyDoc), uuid, now)
    ensures Decode(None, uuid, now) == Success(Event(
              Some(uuid), None, None, Some(IgnoreMicroseconds(now)), Some(IgnoreMicroseconds(now)),
              None, None, Some([])))
  {
  }

  /** The fold never files a reserved key under `tags`. */
  lemma {:induction false} FoldKeepsReservedOut(acc: Extracted, entries: seq<string>)
    requires forall i :: 0 <= i < |acc.tags| ==> !IsReserved(acc.tags[i].0)
    requires Fold(acc, entries).Success?
    ensures forall i :: 0 <= i < |Fold(acc, entries).value.tags| ==> !IsReserved(Fold(acc, entries).value.tags[i].0)
    decreases |entries|
  {
    if |entries| > 0 {
      var acc' := Step(acc, entries[0]).value;
      var (k, v) := SplitFirstColon(entries[0]).value;
      if !IsReserved(k) {
        var t' := AppendValue(acc.tags, k, v);
        forall i | 0 <= i < |t'|
          ensures !IsReserved(t'[i].0)
        {
          if i < |acc.tags| && acc.tags[i].0 != k {
            assert t'[i] == acc.tags[i];
          } else {
            assert Keys(t')[i] == t'[i].0;
            assert t'[i].0 == k;
          }
        }
      }
      FoldKeepsReservedOut(acc', entries[1..]);
    }
  }

  /** A decoded record never has `source_id` or `parent_id` among its tag keys. */
  lemma DecodedTagsHaveNoReservedKey(d: StorageDoc, uuid: string, now: Time)
    requires Decode(Some(d), uuid, now).Success?
    ensures var t := Decode(Some(d), uuid, now).value.tags.value;
      forall i :: 0 <= i < |t| ==> !IsReserved(t[i].0)
  {
    if d != EmptyDoc && d.tags.Some? && |d.tags.value| > 0 {
      FoldKeepsReservedOut(NothingExtracted, d.tags.value);
    }
  }

  /** Entries whose key is not `source_id` leave the source id alone. */
  lemma {:induction false} FoldKeepsSourceId(acc: Extracted, entries: seq<string>)
    requires forall i :: 0 <= i < |entries| ==>
               SplitFirstColon(entries[i]).None? || SplitFirstColon(entries[i]).value.0 != SourceIdKey
    requires Fold(acc, entries).Success?
    ensures Fold(acc, entries).value.sourceId == acc.sourceId
    decreases |entries|
  {
    if |entries| > 0 {
      FoldKeepsSourceId(Step(acc, entries[0]).value, entries[1..]);
    }
  }

  /** Last occurrence wins: the source id decoded from a tag list is the
      value of its last `source_id:` entry. */
  lemma DecodeLastSourceIdWins(d: StorageDoc, pre: seq<string>, v: string, post: seq<string>, uuid: string, now: Time)
    requires d.tags == Some(pre + [Tag(SourceIdKey, v)] + post)
    requires forall i :: 0 <= i < |post| ==>
               SplitFirstColon(post[i]).None? || SplitFirstColon(post[i]).value.0 != SourceIdKey
    requires Decode(Some(d), uuid, now).Success?
    ensures Decode(Some(d), uuid, now).value.sourceId == Some(v)
  {
    SplitTag(SourceIdKey, v);
    var all := pre + [Tag(SourceIdKey, v)] + post;
    assert d != EmptyDoc && |all| > 0;
    FoldAppend(NothingExtracted, pre + [Tag(SourceIdKey, v)], post);
    FoldAppend(NothingExtracted, pre, [Tag(SourceIdKey, v)]);
    var x := Fold(NothingExtracted, pre).value;
    assert Fold(x, [Tag(SourceIdKey, v)]) == Success(x.(sourceId := Some(v)));
    FoldKeepsSourceId(x.(sourceId := Some(v)), post);
  }

  // ------------------------------------------------------------- round trip

  /** Reading a single entry is one step. */
  lemma FoldSingle(acc: Extracted, x: string)
    ensures Fold(acc, [x]) == Step(acc, x)
  {
    var r := Step(acc, x);
    assert [x][1..] == [];
    if r.Success? {
      assert Fold(r.value, []) == Success(r.value);
    }
  }

  /** A user entry appends its value under its key. */
  lemma StepUserEntry(acc: Extracted, k: string, v: string)
    requires ':' !in k && !IsReserved(k)
    ensures Step(acc, Tag(k, v)) == Success(acc.(tags := AppendValue(acc.tags, k, v)))
  {
    SplitTag(k, v);
  }

  /** The entries of one key, read from any state, append that key's values
      in order. */
  lemma {:induction false} FoldValueEntries(acc: Extracted, k: string, vs: seq<string>)
    requires ':' !in k && !IsReserved(k)
    ensures Fold(acc, ValueEntries(k, vs)) == Success(acc.(tags := AppendAll(acc.tags, k, vs)))
    decreases |vs|
  {
    if |vs| > 0 {
      var init, last := vs[..|vs| - 1], vs[|vs| - 1];
      FoldValueEntries(acc, k, init);
      FoldAppend(acc, ValueEntries(k, init), [Tag(k, last)]);
      var x := acc.(tags := AppendAll(acc.tags, k, init));
      FoldSingle(x, Tag(k, last));
      StepUserEntry(x, k, last);
    }
  }

  /** The tags a record can hold so that the stored form gives them back:
      a dict whose keys are colon-free, not reserved, and whose value lists
      are non-empty. */
  predicate Recoverable(t: Tags) {
    && DistinctKeys(t)
    && forall i :: 0 <= i < |t| ==> ':' !in t[i].0 && !IsReserved(t[i].0) && |t[i].1| > 0
  }

  /** The entries of a key the state does not hold yet add that key, with
      its values, at the end. */
  lemma FoldNewKey(acc: Extracted, k: string, vs: seq<string>)
    requires ':' !in k && !IsReserved(k) && |vs| > 0
    requires !HasKey(acc.tags, k)
    ensures Fold(acc, ValueEntries(k, vs)) == Success(acc.(tags := acc.tags + [(k, vs)]))
  {
    FoldValueEntries(acc, k, vs);
    AppendAllIsPut(acc.tags, k, vs);
    assert Lookup(acc.tags, k).GetOr([]) + vs == vs;
  }

  lemma MoveFirst<T>(a: seq<T>, t: seq<T>)
    requires |t| > 0
    ensures (a + [t[0]]) + t[1..] == a + t
  {
    assert [t[0]] + t[1..] == t;
  }

  /** Reading the flattened tags after a state with none of their keys
      appends the dict to that state. */
  lemma {:induction false} FoldFlatten(acc: Extracted, t: Tags)
    requires Recoverable(t)
    requires forall i :: 0 <= i < |t| ==> !HasKey(acc.tags, t[i].0)
    ensures Fold(acc, Flatten(t)) == Success(acc.(tags := acc.tags + t))
    decreases |t|
  {
    if |t| > 0 {
      var k, vs := t[0].0, t[0].1;
      var rest := t[1..];
      FoldAppend(acc, ValueEntries(k, vs), Flatten(rest));
      FoldNewKey(acc, k, vs);
      var tags1 := acc.tags + [(k, vs)];
      assert Recoverable(rest) by {
        assert forall i :: 0 <= i < |rest| ==> rest[i] == t[i + 1];
      }
      forall i | 0 <= i < |rest|
        ensures !HasKey(tags1, rest[i].0)
      {
        assert rest[i] == t[i + 1];
        HasKeyAppend(acc.tags, k, vs, rest[i].0);
      }
      FoldFlatten(acc.(tags := tags1), rest);
      MoveFirst(acc.tags, t);
    } else {
      assert acc.tags + t == acc.tags;
    }
  }

  /** Reading the synthesized entries sets exactly the truthy reserved fields. */
  lemma FoldReserved(acc: Extracted, e: Event)
    ensures Fold(acc, ReservedEntries(e)) == Success(acc.(
              sourceId := if Truthy(e.sourceId) then e.sourceId else acc.sourceId,
              parentId := if Truthy(e.parentId) then e.parentId else acc.parentId))
  {
    var s := if Truthy(e.sourceId) then [Tag(SourceIdKey, e.sourceId.value)] else [];
    var p := if Truthy(e.parentId) then [Tag(ParentIdKey, e.parentId.value)] else [];
    if Truthy(e.sourceId) { SplitTag(SourceIdKey, e.sourceId.value); }
    if Truthy(e.parentId) { SplitTag(ParentIdKey, e.parentId.value); }
    FoldAppend(acc, s, p);
  }

  /** The records the codec round-trips: an id, both times set and aligned,
      recoverable tags, and source/parent ids that are absent or non-empty. */
  predicate Encodable(e: Event) {
    && e.id.Some?
    && TimesAligned(e)
    && e.tags.Some? && Recoverable(e.tags.value)
    && (e.sourceId.None? || e.sourceId.value != "")
    && (e.parentId.None? || e.parentId.value != "")
  }

  /** Round trip: decoding what was encoded gives the record back, whatever
      the write clock and whatever the decoder's default factories return. */
  lemma RoundTrip(e: Event, now: Time, uuid: string, later: Time)
    requires Encodable(e)
    ensures Decode(Some(Encode(e, now)), uuid, later) == Success(e)
  {
    var d := Encode(e, now);
    var t := e.tags.value;
    assert d != EmptyDoc;
    var entries := Flatten(t) + ReservedEntries(e);
    FoldAppend(NothingExtracted, Flatten(t), ReservedEntries(e));
    FoldFlatten(NothingExtracted, t);
    assert NothingExtracted.tags + t == t;
    FoldReserved(NothingExtracted.(tags := t), e);
    var x := Extracted(e.sourceId, e.parentId, t);
    assert ExtractTags(d.tags) == Success(x);
    IgnoreMicrosecondsFixesAligned(e.startTime.value);
    IgnoreMicrosecondsFixesAligned(e.endTime.value);
  }
}

=== FILE: graph.dfy ===
/** The graph engine over the store: `trace` walks from an event up its
    `parent_id` links, `get_tree` builds the tree of its descendants.

    Both walks see the store only through two lookups, `find_by_id` and
    `find_by_parent_id`; they are written here over those lookups as
    function values, and then instantiated with the store's.

    Neither loop in the store guards against a cycle of parent links, so
    both walks take an explicit bound: `trace` at most `fuel` events (the
    role `MAX_RECURSIVE_DEPTH` plays in the successor package), `get_tree`
    at most `depth` levels below the root. */
module Graph {
  import opened Wrappers
  import opened Timestamps
  import opened TagMap
  import opened Records
  import opened Codec
  import opened Store

  /** `find_by_id` as a function value. */
  type Finder = string -> Result<Event, StoreError>

  /** `find_by_parent_id` as a function value. */
  type ChildFinder = string -> Result<seq<Event>, StoreError>

  function FinderOf(c: Collection, uuid: string, now: Time): Finder {
    id => FindById(c, id, uuid, now)
  }

  function ChildFinderOf(c: Collection, uuid: string, now: Time): ChildFinder {
    id => FindByParentId(c, id, uuid, now)
  }

  /** A lookup that returns only records with the id asked for. */
  ghost predicate FindsById(find: Finder) {
    forall id :: find(id).Success? ==> find(id).value.id == Some(id)
  }

  /** A lookup whose only errors are undecodable documents. */
  ghost predicate FailsOnlyOnCorrupt<T>(find: string -> Result<T, StoreError>) {
    forall id :: find(id).Failure? ==> find(id).error.Corrupt?
  }

  lemma StoreFinder(c: Collection, uuid: string, now: Time)
    ensures FindsById(FinderOf(c, uuid, now))
    ensures forall id :: FinderOf(c, uuid, now)(id).Failure? ==>
              FinderOf(c, uuid, now)(id).error == NotFound || FinderOf(c, uuid, now)(id).error.Corrupt?
  {
  }

  lemma StoreChildFinder(c: Collection, uuid: string, now: Time)
    ensures FailsOnlyOnCorrupt(ChildFinderOf(c, uuid, now))
  {
    forall id | ChildFinderOf(c, uuid, now)(id).Failure?
      ensures ChildFinderOf(c, uuid, now)(id).error.Corrupt?
    {
      DecodeAllErrors(Select(c, TagIn(ParentTag(id))), uuid, now);
    }
  }

  lemma {:induction false} DecodeAllErrors(docs: Collection, uuid: string, now: Time)
    ensures DecodeAll(docs, uuid, now).Failure? ==> DecodeAll(docs, uuid, now).error.Corrupt?
    decreases |docs|
  {
    if |docs| > 0 {
      DecodeAllErrors(docs[1..], uuid, now);
    }
  }

  // ---------------------------------------------------------------- trace

  /** The `trace` loop: the event, its parent, its grandparent, ... . It
      ends without error at an event with no parent or at an id the lookup
      does not find; any other lookup error propagates. */
  function Walk(find: Finder, id: string, fuel: nat): (r: Result<seq<Event>, StoreError>)
    decreases fuel
    ensures r.Failure? ==> r.error != NotFound
    ensures r.Success? ==> |r.value| <= fuel
    ensures r.Success? && |r.value| == 0 ==> fuel == 0 || find(id) == Failure(NotFound)
    ensures r.Success? && |r.value| > 0 ==> find(id) == Success(r.value[0])
    ensures r.Success? ==> forall i :: 0 <= i < |r.value| - 1 ==>
              r.value[i].parentId.Some? && find(r.value[i].parentId.value) == Success(r.value[i + 1])
    ensures r.Success? && 0 < |r.value| < fuel ==>
              var last := r.value[|r.value| - 1];
              last.parentId.None? || find(last.parentId.value) == Failure(NotFound)
  {
    if fuel == 0 then Success([])
    else match find(id)
      case Failure(err) => if err == NotFound then Success([]) else Failure(err)
      case Success(e) =>
        match e.parentId
        case None => Success([e])
        case Some(p) =>
          match Walk(find, p, fuel - 1)
          case Failure(err) => Failure(err)
          case Success(rest) => Success([e] + rest)
  }

  /** Over a lookup that returns only the id asked for, the walk is a chain
      of parent links starting at `id`. */
  lemma {:induction false} WalkIsChain(find: Finder, id: string, fuel: nat)
    requires FindsById(find)
    ensures var r := Walk(find, id, fuel);
            r.Success? ==>
              && (|r.value| > 0 ==> r.value[0].id == Some(id))
              && (forall i :: 0 <= i < |r.value| - 1 ==>
                    r.value[i].parentId.Some? && r.value[i + 1].id == r.value[i].parentId)
  {
    var r := Walk(find, id, fuel);
    if r.Success? {
      forall i | 0 <= i < |r.value| - 1
        ensures r.value[i].parentId.Some? && r.value[i + 1].id == r.value[i].parentId
      {
        assert find(r.value[i].parentId.value) == Success(r.value[i + 1]);
      }
    }
  }

  /** The walk fails only with an error of the lookup other than `NotFound`. */
  lemma {:induction false} WalkErrors(find: Finder, id: string, fuel: nat)
    requires forall x :: find(x).Failure? ==> find(x).error == NotFound || find(x).error.Corrupt?
    ensures Walk(find, id, fuel).Failure? ==> Walk(find, id, fuel).error.Corrupt?
    decreases fuel
  {
    if fuel > 0 && find(id).Success? && find(id).value.parentId.Some? {
      WalkErrors(find, find(id).value.parentId.value, fuel - 1);
    }
  }

  /** `trace` over the store. */
  function Trace(c: Collection, id: string, fuel: nat, uuid: string, now: Time): (r: Result<seq<Event>, StoreError>)
    ensures r.Failure? ==> r.error.Corrupt?
    ensures r.Success? && |r.value| > 0 ==> r.value[0].id == Some(id)
    ensures r.Success? ==> forall i :: 0 <= i < |r.value| - 1 ==>
              r.value[i].parentId.Some? && r.value[i + 1].id == r.value[i].parentId
  {
    var find := FinderOf(c, uuid, now);
    StoreFinder(c, uuid, now);
    WalkIsChain(find, id, fuel);
    WalkErrors(find, id, fuel);
    Walk(find, id, fuel)
  }

  /** `n` found events, each but the last with a parent id, starting at `id`. */
  ghost predicate Linked(find: Finder, id: string, n: nat)
    decreases n
  {
    n == 0 ||
    (find(id).Success? &&
      (n == 1 || (find(id).value.parentId.Some? && Linked(find, find(id).value.parentId.value, n - 1))))
  }

  /** A chain at least as long as the bound is cut to exactly the bound. */
  lemma {:induction false} WalkCutAtBound(find: Finder, id: string, fuel: nat)
    requires Linked(find, id, fuel)
    ensures Walk(find, id, fuel).Success?
    ensures |Walk(find, id, fuel).value| == fuel
    decreases fuel
  {
    if fuel > 1 {
      WalkCutAtBound(find, find(id).value.parentId.value, fuel - 1);
    }
  }

  /** A walk that ended before its bound ended on its own: any larger bound
      gives the same answer, so the unbounded loop agrees with it. */
  lemma {:induction false} WalkStable(find: Finder, id: string, fuel: nat, more: nat)
    requires Walk(find, id, fuel).Success?
    requires |Walk(find, id, fuel).value| < fuel
    requires more >= fuel
    ensures Walk(find, id, more) == Walk(find, id, fuel)
    decreases fuel
  {
    if find(id).Success? && find(id).value.parentId.Some? {
      WalkStable(find, find(id).value.parentId.value, fuel - 1, more - 1);
    }
  }

  /** A found event whose parent is not found walks to itself alone. */
  lemma WalkStopsAtMissingParent(find: Finder, id: string, fuel: nat)
    requires fuel > 0
    requires find(id).Success?
    requires var p := find(id).value.parentId;
             p.None? || find(p.value) == Failure(NotFound)
    ensures Walk(find, id, fuel) == Success([find(id).value])
  {
    var e := find(id).value;
    if e.parentId.Some? {
      assert Walk(find, e.parentId.value, fuel - 1) == Success([]);
      assert [e] + [] == [e];
    }
  }

  // ---------------------------------------------------------------- get_tree

  /** An `EventNode`: an event and the nodes of its children. */
  datatype Node = Node(event: Event, children: seq<Node>)

  /** `"{0}".format(id)`: the text of an id, `"None"` for a missing one. */
  function IdText(id: Option<string>): (r: string)
    ensures id.Some? ==> r == id.value
    ensures id.None? ==> r == "None"
  {
    match id
    case Some(s) => s
    case None => "None"
  }

  /** The position of the first occurrence of `x` in `s`. */
  function FirstIndex(s: seq<Event>, x: Event): (i: nat)
    requires x in s
    ensures i < |s| && s[i] == x && x !in s[..i]
  {
    if s[0] == x then 0
    else
      var k := FirstIndex(s[1..], x);
      assert s[..k + 1] == [s[0]] + s[1..][..k];
      k + 1
  }

  /** The first occurrence is the only position holding `x` with no
      earlier `x`. */
  lemma FirstIndexUnique(s: seq<Event>, x: Event, k: nat)
    requires k < |s| && s[k] == x && x !in s[..k]
    ensures FirstIndex(s, x) == k
  {
  }

  /** `r` is strictly ordered by where its events first occur in `s`. */
  ghost predicate Ascending(r: seq<Event>, s: seq<Event>) {
    && (forall i :: 0 <= i < |r| ==> r[i] in s)
    && (forall i, j :: 0 <= i < j < |r| ==> FirstIndex(s, r[i]) < FirstIndex(s, r[j]))
  }

  /** `r` lists each event of `s` once, ordered by where it first occurs
      in `s`. */
  ghost predicate FirstOccurrences(r: seq<Event>, s: seq<Event>) {
    && (forall x :: x in r <==> x in s)
    && Ascending(r, s)
  }

  /** The tail of an ascending list is ascending and lies above its head. */
  lemma AscendingTail(a: seq<Event>, s: seq<Event>)
    requires |a| > 0 && Ascending(a, s)
    ensures Ascending(a[1..], s)
    ensures forall x :: x in a[1..] ==> a[0] in s && x in s && FirstIndex(s, a[0]) < FirstIndex(s, x)
  {
    forall x | x in a[1..]
      ensures a[0] in s && x in s && FirstIndex(s, a[0]) < FirstIndex(s, x)
    {
      var i :| 0 <= i < |a| - 1 && a[1..][i] == x;
      assert a[i + 1] == x;
    }
    forall i | 0 <= i < |a| - 1
      ensures a[1..][i] in s
    {
      assert a[1..][i] == a[i + 1];
    }
    forall i, j | 0 <= i < j < |a| - 1
      ensures FirstIndex(s, a[1..][i]) < FirstIndex(s, a[1..][j])
    {
      assert a[1..][i] == a[i + 1] && a[1..][j] == a[j + 1];
    }
  }

  /** Two ascending lists with the same members start alike. */
  lemma AscendingSameHead(a: seq<Event>, b: seq<Event>, s: seq<Event>)
    requires |a| > 0 && |b| > 0 && Ascending(a, s) && Ascending(b, s)
    requires forall x :: x in a <==> x in b
    ensures a[0] == b[0]
  {
    AscendingTail(a, s);
    AscendingTail(b, s);
    assert a[0] in b && b[0] in a;
    assert a == [a[0]] + a[1..] && b == [b[0]] + b[1..];
  }

  /** An element of `a`, when there is one. */
  lemma SomeMember(a: seq<Event>) returns (x: Event)
    ensures |a| > 0 ==> x in a
  {
    if |a| > 0 {
      x := a[0];
    } else {
      x := Event(None, None, None, None, None, None, None, None);
    }
  }

  /** Two lists with the same members, each ascending in `s`, are equal. */
  lemma {:induction false} OrderedByFirstIndexUnique(a: seq<Event>, b: seq<Event>, s: seq<Event>)
    requires forall x :: x in a <==> x in b
    requires Ascending(a, s) && Ascending(b, s)
    ensures a == b
    decreases |a| + |b|
  {
    if |a| == 0 || |b| == 0 {
      var x := SomeMember(a);
      var y := SomeMember(b);
    } else {
      AscendingSameHead(a, b, s);
      AscendingTail(a, s);
      AscendingTail(b, s);
      assert a == [a[0]] + a[1..] && b == [b[0]] + b[1..];
      forall x
        ensures x in a[1..] <==> x in b[1..]
      {
        if x in a[1..] { assert x != a[0] && x in a; }
        if x in b[1..] { assert x != b[0] && x in b; }
      }
      OrderedByFirstIndexUnique(a[1..], b[1..], s);
    }
  }

  /** The first occurrences of a list determine one order only. */
  lemma FirstOccurrencesUnique(a: seq<Event>, b: seq<Event>, s: seq<Event>)
    requires FirstOccurrences(a, s) && FirstOccurrences(b, s)
    ensures a == b
  {
    OrderedByFirstIndexUnique(a, b, s);
  }

  /** Appending an element keeps the first occurrences of earlier ones. */
  lemma FirstIndexSnoc(init: seq<Event>, last: Event, y: Event)
    requires y in init
    ensures FirstIndex(init + [last], y) == FirstIndex(init, y)
  {
    var k := FirstIndex(init, y);
    assert (init + [last])[..k] == init[..k];
    FirstIndexUnique(init + [last], y, k);
  }

  /** Appending to `s` keeps a list ascending in `s`. */
  lemma AscendingSnoc(d: seq<Event>, init: seq<Event>, last: Event)
    requires Ascending(d, init)
    ensures Ascending(d, init + [last])
  {
    forall i | 0 <= i < |d|
      ensures d[i] in init + [last]
    {
      var y := d[i];
      assert y in init;
    }
    forall i, j | 0 <= i < j < |d|
      ensures FirstIndex(init + [last], d[i]) < FirstIndex(init + [last], d[j])
    {
      FirstIndexSnoc(init, last, d[i]);
      FirstIndexSnoc(init, last, d[j]);
    }
  }

  /** A new last element first occurs after every earlier one. */
  lemma AscendingAppendNew(d: seq<Event>, init: seq<Event>, last: Event)
    requires FirstOccurrences(d, init) && last !in init
    ensures Ascending(d + [last], init + [last])
  {
    var s, r := init + [last], d + [last];
    AscendingSnoc(d, init, last);
    assert s[..|init|] == init;
    FirstIndexUnique(s, last, |init|);
    forall i | 0 <= i < |r|
      ensures r[i] in s
    {
      if i < |d| {
        assert r[i] == d[i];
      }
    }
    forall i, j | 0 <= i < j < |r|
      ensures FirstIndex(s, r[i]) < FirstIndex(s, r[j])
    {
      assert r[i] == d[i];
      FirstIndexSnoc(init, last, d[i]);
      if j < |d| {
        assert r[j] == d[j];
      }
    }
  }

  /** One step of the loop keeps the first-occurrence order. */
  lemma DedupStep(init: seq<Event>, last: Event, d: seq<Event>)
    requires FirstOccurrences(d, init)
    ensures FirstOccurrences(if last in d then d else d + [last], init + [last])
  {
    if last in d {
      AscendingSnoc(d, init, last);
    } else {
      AscendingAppendNew(d, init, last);
    }
  }

  /** The `if child_node not in event_node.children: append` loop: the
      first occurrence of each event, in order. Nodes are compared while
      their children are still empty, so by their events. */
  function Dedup(s: seq<Event>): (r: seq<Event>)
    ensures |r| <= |s|
    ensures Distinct(r)
    ensures FirstOccurrences(r, s)
  {
    if |s| == 0 then []
    else
      var init, last := s[..|s| - 1], s[|s| - 1];
      assert s == init + [last];
      var d := Dedup(init);
      DedupStep(init, last, d);
      if last in d then d else d + [last]
  }

  /** A child found twice stays at its first place: `[b, c, b]` gives
      `[b, c]`. */
  lemma DedupExample(b: Event, c: Event)
    requires b != c
    ensures Dedup([b, c, b]) == [b, c]
  {
    assert [b, c, b][..2] == [b, c];
    assert [b, c][..1] == [b];
    assert [b][..0] == [];
  }

  /** Dedup changes nothing in a list without repeats. */
  lemma DedupDistinct(s: seq<Event>)
    requires Distinct(s)
    ensures Dedup(s) == s
  {
    forall i | 0 <= i < |s|
      ensures FirstIndex(s, s[i]) == i
    {
      FirstIndexUnique(s, s[i], i);
    }
    FirstOccurrencesUnique(Dedup(s), s, s);
  }

  function Events(ns: seq<Node>): (r: seq<Event>)
    ensures |r| == |ns|
    ensures forall i :: 0 <= i < |ns| ==> r[i] == ns[i].event
  {
    if |ns| == 0 then [] else [ns[0].event] + Events(ns[1..])
  }

  /** The subtree below `e`, `depth` levels deep: the node's children are
      its distinct children in the order they are first found, each with
      its own subtree. */
  function BuildNode(kids: ChildFinder, e: Event, depth: nat): (r: Result<Node, StoreError>)
    decreases depth, 0, 0
    ensures r.Success? ==> r.value.event == e
    ensures r.Success? && depth == 0 ==> r.value.children == []
    ensures r.Success? && depth > 0 ==>
              && kids(IdText(e.id)).Success?
              && Distinct(Events(r.value.children))
              && FirstOccurrences(Events(r.value.children), kids(IdText(e.id)).value)
  {
    if depth == 0 then Success(Node(e, []))
    else match kids(IdText(e.id))
      case Failure(err) => Failure(err)
      case Success(ks) =>
        match BuildForest(kids, Dedup(ks), depth - 1)
        case Failure(err) => Failure(err)
        case Success(ns) =>
          assert Events(ns) == Dedup(ks);
          Success(Node(e, ns))
  }

  /** The subtrees of a list of sibling events, in order. */
  function BuildForest(kids: ChildFinder, es: seq<Event>, depth: nat): (r: Result<seq<Node>, StoreError>)
    decreases depth, 1, |es|
    ensures r.Success? ==> |r.value| == |es| && forall i :: 0 <= i < |es| ==> r.value[i].event == es[i]
  {
    if |es| == 0 then Success([])
    else match BuildNode(kids, es[0], depth)
      case Failure(err) => Failure(err)
      case Success(n) =>
        match BuildForest(kids, es[1..], depth)
        case Failure(err) => Failure(err)
        case Success(ns) => Success([n] + ns)
  }

  /** Building fails only with an error of the child lookup. */
  lemma {:induction false} BuildNodeErrors(kids: ChildFinder, e: Event, depth: nat)
    requires FailsOnlyOnCorrupt(kids)
    ensures BuildNode(kids, e, depth).Failure? ==> BuildNode(kids, e, depth).error.Corrupt?
    decreases depth, 0, 0
  {
    if depth > 0 && kids(IdText(e.id)).Success? {
      BuildForestErrors(kids, Dedup(kids(IdText(e.id)).value), depth - 1);
    }
  }

  lemma {:induction false} BuildForestErrors(kids: ChildFinder, es: seq<Event>, depth: nat)
    requires FailsOnlyOnCorrupt(kids)
    ensures BuildForest(kids, es, depth).Failure? ==> BuildForest(kids, es, depth).error.Corrupt?
    decreases depth, 1, |es|
  {
    if |es| > 0 {
      BuildNodeErrors(kids, es[0], depth);
      BuildForestErrors(kids, es[1..], depth);
    }
  }

  /** `get_tree`: the root is `find_by_id(id)`, so a missing root is
      `NotFound`; below it, the tree of its descendants. */
  function GetTree(c: Collection, id: string, depth: nat, uuid: string, now: Time): (r: Result<Node, StoreError>)
    ensures r == Failure(NotFound) <==> !Contains(c, id)
    ensures r.Success? ==> r.value.event.id == Some(id) && FindById(c, id, uuid, now) == Success(r.value.event)
  {
    match FindById(c, id, uuid, now)
    case Failure(err) => Failure(err)
    case Success(root) =>
      StoreChildFinder(c, uuid, now);
      BuildNodeErrors(ChildFinderOf(c, uuid, now), root, depth);
      BuildNode(ChildFinderOf(c, uuid, now), root, depth)
  }

  /** The declarative shape of a built tree: every node above the bound has
      as children exactly the distinct events found under it, each once, in
      the order they are first found, and each the root of a tree of the
      same shape. */
  ghost predicate WellBuilt(kids: ChildFinder, n: Node, depth: nat)
    decreases n
  {
    && (depth == 0 ==> n.children == [])
    && (depth > 0 ==>
          && kids(IdText(n.event.id)).Success?
          && Distinct(Events(n.children))
          && FirstOccurrences(Events(n.children), kids(IdText(n.event.id)).value)
          && forall i :: 0 <= i < |n.children| ==> WellBuilt(kids, n.children[i], depth - 1))
  }

  /** Every tree `get_tree` builds has that shape. */
  lemma {:induction false} BuildNodeWellBuilt(kids: ChildFinder, e: Event, depth: nat)
    requires BuildNode(kids, e, depth).Success?
    ensures WellBuilt(kids, BuildNode(kids, e, depth).value, depth)
    decreases depth, 0, 0
  {
    if depth > 0 {
      BuildForestWellBuilt(kids, Dedup(kids(IdText(e.id)).value), depth - 1);
    }
  }

  lemma {:induction false} BuildForestWellBuilt(kids: ChildFinder, es: seq<Event>, depth: nat)
    requires BuildForest(kids, es, depth).Success?
    ensures forall i :: 0 <= i < |es| ==> WellBuilt(kids, BuildForest(kids, es, depth).value[i], depth)
    decreases depth, 1, |es|
  {
    if |es| > 0 {
      BuildNodeWellBuilt(kids, es[0], depth);
      BuildForestWellBuilt(kids, es[1..], depth);
      var ns := BuildForest(kids, es, depth).value;
      assert forall i :: 1 <= i < |es| ==> ns[i] == BuildForest(kids, es[1..], depth).value[i - 1];
    }
  }

  /** That shape determines the tree: there is one tree of it per root. */
  lemma {:induction false} WellBuiltUnique(kids: ChildFinder, n: Node, m: Node, depth: nat)
    requires n.event == m.event
    requires WellBuilt(kids, n, depth) && WellBuilt(kids, m, depth)
    ensures n == m
    decreases depth, 0
  {
    if depth > 0 {
      FirstOccurrencesUnique(Events(n.children), Events(m.children), kids(IdText(n.event.id)).value);
      ForestUnique(kids, n.children, m.children, depth - 1);
    }
  }

  lemma {:induction false} ForestUnique(kids: ChildFinder, ns: seq<Node>, ms: seq<Node>, depth: nat)
    requires Events(ns) == Events(ms)
    requires forall i :: 0 <= i < |ns| ==> WellBuilt(kids, ns[i], depth)
    requires forall i :: 0 <= i < |ms| ==> WellBuilt(kids, ms[i], depth)
    ensures ns == ms
    decreases depth, 1
  {
    forall i | 0 <= i < |ns|
      ensures ns[i] == ms[i]
    {
      assert ns[i].event == Events(ns)[i] == Events(ms)[i] == ms[i].event;
      WellBuiltUnique(kids, ns[i], ms[i], depth);
    }
  }

  /** No descendant of `e` lies more than `depth` levels below it: every
      lookup on the way succeeds, and those `depth` levels down find no
      children. */
  ghost predicate Exhausted(kids: ChildFinder, e: Event, depth: nat)
    decreases depth
  {
    && kids(IdText(e.id)).Success?
    && (depth == 0 ==> kids(IdText(e.id)).value == [])
    && (depth > 0 ==> forall x :: x in kids(IdText(e.id)).value ==> Exhausted(kids, x, depth - 1))
  }

  /** A tree that ends above its bound is the same under any larger bound,
      so it is the tree the unbounded loop builds. */
  lemma {:induction false} BuildNodeStable(kids: ChildFinder, e: Event, depth: nat, more: nat)
    requires Exhausted(kids, e, depth)
    requires more >= depth
    ensures BuildNode(kids, e, more) == BuildNode(kids, e, depth)
    decreases depth, 0, 0
  {
    if depth == 0 {
      LeafHasNoChildren(kids, e, more);
    } else {
      var ks := kids(IdText(e.id)).value;
      var d := Dedup(ks);
      forall x | x in d
        ensures Exhausted(kids, x, depth - 1)
      {
        assert x in ks;
      }
      BuildForestStable(kids, d, depth - 1, more - 1);
      BuildNodeStep(kids, e, depth);
      BuildNodeStep(kids, e, more);
    }
  }

  /** One level of `BuildNode`: the node over the forest of its distinct
      children. */
  lemma BuildNodeStep(kids: ChildFinder, e: Event, depth: nat)
    requires depth > 0 && kids(IdText(e.id)).Success?
    ensures var f := BuildForest(kids, Dedup(kids(IdText(e.id)).value), depth - 1);
            BuildNode(kids, e, depth) == if f.Success? then Success(Node(e, f.value)) else Failure(f.error)
  {
  }

  lemma {:induction false} BuildForestStable(kids: ChildFinder, es: seq<Event>, depth: nat, more: nat)
    requires forall x :: x in es ==> Exhausted(kids, x, depth)
    requires more >= depth
    ensures BuildForest(kids, es, more) == BuildForest(kids, es, depth)
    decreases depth, 1, |es|
  {
    if |es| > 0 {
      var x := es[0];
      assert x in es;
      BuildNodeStable(kids, x, depth, more);
      forall y | y in es[1..]
        ensures Exhausted(kids, y, depth)
      {
        assert y in es;
      }
      BuildForestStable(kids, es[1..], depth, more);
    }
  }

  /** `get_tree` over descendants that end within `depth` levels gives the
      same tree under any larger bound. */
  lemma GetTreeStable(c: Collection, id: string, depth: nat, more: nat, uuid: string, now: Time)
    requires FindById(c, id, uuid, now).Success?
    requires Exhausted(ChildFinderOf(c, uuid, now), FindById(c, id, uuid, now).value, depth)
    requires more >= depth
    ensures GetTree(c, id, more, uuid, now) == GetTree(c, id, depth, uuid, now)
    ensures GetTree(c, id, depth, uuid, now).Success?
  {
    var kids, root := ChildFinderOf(c, uuid, now), FindById(c, id, uuid, now).value;
    BuildNodeStable(kids, root, depth, more);
    ExhaustedBuilds(kids, root, depth);
  }

  /** Building below an exhausted event does not fail. */
  lemma {:induction false} ExhaustedBuilds(kids: ChildFinder, e: Event, depth: nat)
    requires Exhausted(kids, e, depth)
    ensures BuildNode(kids, e, depth).Success?
    decreases depth, 0, 0
  {
    if depth > 0 {
      ExhaustedForestBuilds(kids, Dedup(kids(IdText(e.id)).value), depth - 1);
    }
  }

  lemma {:induction false} ExhaustedForestBuilds(kids: ChildFinder, es: seq<Event>, depth: nat)
    requires forall x :: x in es ==> Exhausted(kids, x, depth)
    ensures BuildForest(kids, es, depth).Success?
    decreases depth, 1, |es|
  {
    if |es| > 0 {
      var x := es[0];
      assert x in es;
      ExhaustedBuilds(kids, x, depth);
      forall y | y in es[1..]
        ensures Exhausted(kids, y, depth)
      {
        assert y in es;
      }
      ExhaustedForestBuilds(kids, es[1..], depth);
    }
  }

  /** A node with no children found is a leaf. */
  lemma LeafHasNoChildren(kids: ChildFinder, e: Event, depth: nat)
    requires kids(IdText(e.id)) == Success([])
    ensures BuildNode(kids, e, depth) == Success(Node(e, []))
  {
    if depth > 0 {
      assert Dedup([]) == [];
    }
  }
}

=== FILE: reconcile.dfy ===
/** Reconciling an incoming event with the stored one: the field policy of
    `_merge` (with `_merge_reserved_keys` and `_add_to_dict`), the
    last-write-wins `_update`, and the dispatch of `post_event`.

    The two packages run the same policy and differ in what counts as an
    absent field: event_tracking tests `is not None`, tycho tests
    truthiness, so that an empty string, dict or tag dict is absent too. */
module Reconcile {
  import opened Wrappers
  import opened Timestamps
  import opened TagMap
  import opened Records
  import opened Codec
  import opened CodecProperties
  import opened Store
  import opened StoreProperties

  /** The package whose routes are modelled. */
  datatype Package = EventTracking | Tycho

  /** Whether a field of the given emptiness is present: event_tracking
      only asks that it is not `None`, tycho also that it is not empty. */
  predicate Present(p: Package, isNone: bool, isEmpty: bool) {
    !isNone && (p == EventTracking || !isEmpty)
  }

  predicate HasText(p: Package, o: Option<string>) {
    Present(p, o.None?, o.Some? && o.value == "")
  }

  predicate HasUrls(p: Package, o: Option<Urls>) {
    Present(p, o.None?, o.Some? && |o.value| == 0)
  }

  predicate HasTags(p: Package, o: Option<Tags>) {
    Present(p, o.None?, o.Some? && |o.value| == 0)
  }

  // ------------------------------------------------------------ strip

  /** The characters Python's `str.isspace` accepts, which `str.strip()`
      removes at both ends. */
  predicate IsSpace(c: char) {
    c == ' ' || '\t' <= c <= '\r' || '\U{1c}' <= c <= '\U{1f}' ||
    c == '\U{85}' || c == '\U{a0}' || c == '\U{1680}' ||
    '\U{2000}' <= c <= '\U{200a}' || c == '\U{2028}' || c == '\U{2029}' ||
    c == '\U{202f}' || c == '\U{205f}' || c == '\U{3000}'
  }

  predicate AllSpace(s: string) {
    forall i :: 0 <= i < |s| ==> IsSpace(s[i])
  }

  /** Neither starts nor ends with whitespace. */
  predicate Trimmed(s: string) {
    |s| > 0 ==> !IsSpace(s[0]) && !IsSpace(s[|s| - 1])
  }

  /** Where the text starts: the number of leading whitespace characters. */
  function TextStart(s: string): (i: nat)
    ensures i <= |s|
    ensures forall k :: 0 <= k < i ==> IsSpace(s[k])
    ensures i < |s| ==> !IsSpace(s[i])
  {
    if |s| == 0 || !IsSpace(s[0]) then 0
    else
      var i := 1 + TextStart(s[1..]);
      assert forall k :: 1 <= k < i ==> s[k] == s[1..][k - 1];
      i
  }

  /** Where the text ends: the length without trailing whitespace. */
  function TextEnd(s: string): (j: nat)
    ensures j <= |s|
    ensures forall k :: j <= k < |s| ==> IsSpace(s[k])
    ensures j > 0 ==> !IsSpace(s[j - 1])
  {
    if |s| == 0 || !IsSpace(s[|s| - 1]) then |s|
    else TextEnd(s[..|s| - 1])
  }

  /** `str.strip()`: the text between leading and trailing whitespace. */
  function Strip(s: string): (r: string)
    ensures Trimmed(r)
    ensures exists i :: 0 <= i <= |s| - |r| && s[i..i + |r|] == r && AllSpace(s[..i]) && AllSpace(s[i + |r|..])
  {
    var i, j := TextStart(s), TextEnd(s);
    if i == |s| then
      assert s[..i] == s;
      assert s[i..i] == "";
      ""
    else
      assert i < j;
      var r := s[i..j];
      assert s[i..i + |r|] == r;
      r
  }

  /** Strip is determined by the decomposition it names: whitespace, then
      trimmed text, then whitespace. */
  lemma StripOf(a: string, r: string, b: string)
    requires AllSpace(a) && Trimmed(r) && AllSpace(b)
    ensures Strip(a + r + b) == r
  {
    var s := a + r + b;
    var i, j := TextStart(s), TextEnd(s);
    if |r| == 0 {
      assert s == a + b;
      assert i == |s|;
    } else {
      assert s[|a|] == r[0];
      assert s[|a| + |r| - 1] == r[|r| - 1];
      assert i == |a|;
      assert j == |a| + |r|;
      assert s[i..j] == r;
    }
  }

  /** A trimmed text strips to itself. */
  lemma StripTrimmed(r: string)
    requires Trimmed(r)
    ensures Strip(r) == r
  {
    assert "" + r + "" == r;
    StripOf("", r, "");
  }

  /** Stripping twice is stripping once. */
  lemma StripIdempotent(s: string)
    ensures Strip(Strip(s)) == Strip(s)
  {
    StripOf("", Strip(s), "");
    assert "" + Strip(s) + "" == Strip(s);
  }

  // ------------------------------------------------------------ description

  /** Python's `a in b` on strings. */
  predicate IsSubstring(a: string, b: string)
    decreases |b|
  {
    a <= b || (|b| > 0 && IsSubstring(a, b[1..]))
  }

  /** `a in b` holds exactly when `a` occurs at some position of `b`. */
  lemma {:induction false} IsSubstringIff(a: string, b: string)
    ensures IsSubstring(a, b) <==> exists i :: 0 <= i <= |b| && a <= b[i..]
    decreases |b|
  {
    if |b| > 0 {
      IsSubstringIff(a, b[1..]);
      if exists i :: 0 <= i <= |b| && a <= b[i..] {
        var i :| 0 <= i <= |b| && a <= b[i..];
        if i > 0 {
          assert b[1..][i - 1..] == b[i..];
        }
      }
      if IsSubstring(a, b[1..]) {
        var i :| 0 <= i <= |b[1..]| && a <= b[1..][i..];
        assert b[1..][i..] == b[i + 1..];
      }
    } else {
      assert b[0..] == b;
    }
  }

  lemma SubstringAt(a: string, b: string, i: nat)
    requires i <= |b| && a <= b[i..]
    ensures IsSubstring(a, b)
  {
    IsSubstringIff(a, b);
  }

  /** The description branch of `_merge_reserved_keys`: the stripped
      incoming text is appended on a new line to the stripped existing text,
      unless it is empty or already contained; then nothing changes. */
  function MergeDescription(ex: string, inc: string): (r: string)
    // nothing is lost: both texts occur in the merged one
    ensures IsSubstring(Strip(inc), Strip(r))
    ensures IsSubstring(Strip(ex), Strip(r))
    // a blank or already contained incoming text leaves the description as it was
    ensures |Strip(inc)| == 0 || IsSubstring(Strip(inc), Strip(ex)) ==> r == ex
    // otherwise the result is the two stripped texts, one per line
    ensures |Strip(inc)| > 0 && !IsSubstring(Strip(inc), Strip(ex)) ==> r == Strip(ex) + "\n" + Strip(inc)
  {
    var s1, s2 := Strip(ex), Strip(inc);
    if |s2| > 0 && !IsSubstring(s2, s1) then
      JoinedContains(s1, s2);
      s1 + "\n" + s2
    else
      StripContainsItself(ex);
      assert "" <= s1;
      ex
  }

  /** A stripped text occurs in itself. */
  lemma StripContainsItself(s: string)
    ensures IsSubstring(Strip(s), Strip(s))
  {
    SubstringAt(Strip(s), Strip(s), 0);
  }

  /** Merging a description into itself changes nothing. */
  lemma MergeDescriptionSelf(d: string)
    ensures MergeDescription(d, d) == d
  {
    SubstringAt(Strip(d), Strip(d), 0);
  }

  /** Merging the same description a second time changes nothing more. */
  lemma MergeDescriptionIdempotent(ex: string, inc: string)
    ensures MergeDescription(MergeDescription(ex, inc), inc) == MergeDescription(ex, inc)
  {
    var s1, s2 := Strip(ex), Strip(inc);
    if |s2| > 0 && !IsSubstring(s2, s1) {
      JoinedContains(s1, s2);
    }
  }

  /** Two trimmed texts joined by a newline strip to a text that contains
      both. */
  lemma JoinedContains(s1: string, s2: string)
    requires Trimmed(s1) && Trimmed(s2) && |s2| > 0
    ensures IsSubstring(s2, Strip(s1 + "\n" + s2))
    ensures IsSubstring(s1, Strip(s1 + "\n" + s2))
  {
    var d := s1 + "\n" + s2;
    if |s1| == 0 {
      assert d == "\n" + s2 + "";
      StripOf("\n", s2, "");
      SubstringAt(s2, s2, 0);
      assert s1 <= s2;
    } else {
      JoinedTrimmed(s1, s2);
      StripTrimmed(d);
      assert d[|s1| + 1..] == s2;
      SubstringAt(s2, d, |s1| + 1);
      assert d[0..] == d;
      SubstringAt(s1, d, 0);
    }
  }

  lemma JoinedTrimmed(s1: string, s2: string)
    requires Trimmed(s1) && Trimmed(s2) && |s1| > 0 && |s2| > 0
    ensures Trimmed(s1 + "\n" + s2)
  {
    var d := s1 + "\n" + s2;
    assert d[0] == s1[0];
    assert d[|d| - 1] == s2[|s2| - 1];
  }

  // ------------------------------------------------------------ detail_urls

  /** The detail_urls branch: every incoming label with a URL that is not
      `None` is set or overwritten; every other label keeps its URL. */
  function OverlayUrls(ex: Urls, inc: Urls): (r: Urls)
    ensures forall k :: k in r <==> k in ex || (k in inc && inc[k].Some?)
    ensures forall k :: k in inc && inc[k].Some? ==> r[k] == inc[k]
    ensures forall k :: k in ex && !(k in inc && inc[k].Some?) ==> r[k] == ex[k]
  {
    map k | k in ex.Keys + inc.Keys && (k in ex || inc[k].Some?) ::
      if k in inc && inc[k].Some? then inc[k] else ex[k]
  }

  /** Overlaying the same labels a second time changes nothing more. */
  lemma OverlayIdempotent(ex: Urls, inc: Urls)
    ensures OverlayUrls(OverlayUrls(ex, inc), inc) == OverlayUrls(ex, inc)
  {
  }

  lemma OverlaySelf(u: Urls)
    ensures OverlayUrls(u, u) == u
  {
  }

  // ------------------------------------------------------------ tags

  /** The values of `ys` that are neither in `xs` nor earlier in `ys`, in
      the order of `ys`: a filter on each position of `ys` by its own
      prefix, with no running list. */
  function NewValues(xs: seq<string>, ys: seq<string>): (r: seq<string>)
    ensures forall v :: v in r <==> v in ys && v !in xs
    ensures Distinct(r)
    decreases |ys|
  {
    if |ys| == 0 then []
    else
      var init, y := ys[..|ys| - 1], ys[|ys| - 1];
      assert ys == init + [y];
      var rest := NewValues(xs, init);
      if y in xs || y in init then rest
      else
        assert forall i :: 0 <= i < |rest| ==> rest[i] in rest;
        rest + [y]
  }

  /** The inner loop of `_add_to_dict`: each incoming value not yet in the
      list is appended at its end, in incoming order. */
  function UnionValues(xs: seq<string>, ys: seq<string>): (r: seq<string>)
    ensures r == xs + NewValues(xs, ys)
    ensures forall v :: v in r <==> v in xs || v in ys
    ensures Distinct(xs) ==> Distinct(r)
    decreases |ys|
  {
    if |ys| == 0 then xs
    else
      var init, y := ys[..|ys| - 1], ys[|ys| - 1];
      assert ys == init + [y];
      var acc := UnionValues(xs, init);
      assert y in acc <==> y in xs || y in NewValues(xs, init) || y in init;
      if y in acc then acc else acc + [y]
  }

  /** The values appended are never among the existing ones, and never
      twice: the union adds no repeat, whatever the existing list holds. */
  lemma UnionValuesAppendsNoRepeat(xs: seq<string>, ys: seq<string>)
    ensures var tail := UnionValues(xs, ys)[|xs|..];
            Distinct(tail) && forall v :: v in tail ==> v !in xs
  {
    var r := UnionValues(xs, ys);
    assert r[|xs|..] == NewValues(xs, ys);
  }

  /** The example of the route tests: existing authors Fred and Sean,
      incoming Fred and Mayur. */
  lemma UnionValuesExample()
    ensures UnionValues(["Fred", "Sean"], ["Fred", "Mayur"]) == ["Fred", "Sean", "Mayur"]
  {
    var ys: seq<string> := ["Fred", "Mayur"];
    assert ys[..1] == ["Fred"];
    assert ys[..1][..0] == [];
  }

  /** Values all present already are not appended again. */
  lemma {:induction false} UnionValuesCovered(xs: seq<string>, ys: seq<string>)
    requires forall v :: v in ys ==> v in xs
    ensures UnionValues(xs, ys) == xs
    decreases |ys|
  {
    if |ys| > 0 {
      assert ys[|ys| - 1] in ys;
      assert forall v :: v in ys[..|ys| - 1] ==> v in ys;
      UnionValuesCovered(xs, ys[..|ys| - 1]);
    }
  }

  /** `_add_to_dict`: an incoming key not yet present adopts the incoming
      list; one already present gets the union of the two lists. */
  function UnionTags(t: Tags, u: Tags): (r: Tags)
    ensures Keys(t) <= Keys(r)
    ensures forall k :: HasKey(r, k) <==> HasKey(t, k) || HasKey(u, k)
    ensures DistinctKeys(t) ==> DistinctKeys(r)
  {
    if |u| == 0 then t
    else
      var acc := UnionTags(t, u[..|u| - 1]);
      var (k, vs) := u[|u| - 1];
      var merged := (match Lookup(acc, k) case None => vs case Some(prev) => UnionValues(prev, vs));
      HasKeySnoc(u);
      PutFacts(acc, k, merged);
      Put(acc, k, merged)
  }

  lemma HasKeySnoc(u: Tags)
    requires |u| > 0
    ensures forall k' :: HasKey(u, k') <==> HasKey(u[..|u| - 1], k') || k' == u[|u| - 1].0
  {
    assert u == u[..|u| - 1] + [u[|u| - 1]];
    forall k' {
      HasKeyAppend(u[..|u| - 1], u[|u| - 1].0, u[|u| - 1].1, k');
    }
  }

  lemma PutFacts(t: Tags, k: string, vs: seq<string>)
    ensures forall k' :: HasKey(Put(t, k, vs), k') <==> HasKey(t, k') || k' == k
    ensures DistinctKeys(t) ==> DistinctKeys(Put(t, k, vs))
  {
    forall k' {
      PutHasKey(t, k, vs, k');
    }
    if DistinctKeys(t) {
      PutKeepsDistinct(t, k, vs);
    }
  }

  lemma PutHasKey(t: Tags, k: string, vs: seq<string>, k': string)
    ensures HasKey(Put(t, k, vs), k') <==> HasKey(t, k') || k' == k
  {
    var r := Put(t, k, vs);
    assert HasKey(r, k) by { assert Lookup(r, k).Some?; }
    if HasKey(t, k) {
      assert forall i :: 0 <= i < |t| ==> Keys(r)[i] == Keys(t)[i];
      if HasKey(t, k') {
        var i :| 0 <= i < |t| && t[i].0 == k';
        assert r[i].0 == Keys(r)[i];
      }
      if HasKey(r, k') {
        var i :| 0 <= i < |r| && r[i].0 == k';
        assert t[i].0 == Keys(t)[i];
      }
    } else {
      HasKeyAppend(t, k, vs, k');
    }
  }

  /** After the union every incoming value is stored under its key. */
  lemma {:induction false} UnionTagsCovers(t: Tags, u: Tags)
    ensures forall i :: 0 <= i < |u| ==>
              Lookup(UnionTags(t, u), u[i].0).Some? &&
              forall v :: v in u[i].1 ==> v in Lookup(UnionTags(t, u), u[i].0).value
    decreases |u|
  {
    if |u| > 0 {
      var init := u[..|u| - 1];
      UnionTagsCovers(t, init);
      var acc := UnionTags(t, init);
      var (k, vs) := u[|u| - 1];
      var merged := (match Lookup(acc, k) case None => vs case Some(prev) => UnionValues(prev, vs));
      forall i | 0 <= i < |u| - 1
        ensures Lookup(Put(acc, k, merged), u[i].0).Some? &&
                forall v :: v in u[i].1 ==> v in Lookup(Put(acc, k, merged), u[i].0).value
      {
        assert u[i] == init[i];
        if u[i].0 != k {
          PutOtherKey(acc, k, merged, u[i].0);
        }
      }
    }
  }

  /** A union that brings no new key and no new value changes nothing,
      not even the order of the keys. */
  lemma {:induction false} UnionTagsCovered(t: Tags, u: Tags)
    requires forall i :: 0 <= i < |u| ==>
               Lookup(t, u[i].0).Some? && forall v :: v in u[i].1 ==> v in Lookup(t, u[i].0).value
    ensures UnionTags(t, u) == t
    decreases |u|
  {
    if |u| > 0 {
      var init := u[..|u| - 1];
      assert forall i :: 0 <= i < |init| ==> init[i] == u[i];
      UnionTagsCovered(t, init);
      var (k, vs) := u[|u| - 1];
      var prev := Lookup(t, k).value;
      UnionValuesCovered(prev, vs);
      PutSame(t, k);
    }
  }

  /** Merging the same tags a second time changes nothing more. */
  lemma UnionTagsIdempotent(t: Tags, u: Tags)
    ensures UnionTags(UnionTags(t, u), u) == UnionTags(t, u)
  {
    UnionTagsCovers(t, u);
    UnionTagsCovered(UnionTags(t, u), u);
  }

  /** A dict merged with itself is unchanged. */
  lemma UnionTagsSelf(t: Tags)
    requires DistinctKeys(t)
    ensures UnionTags(t, t) == t
  {
    forall i | 0 <= i < |t|
      ensures Lookup(t, t[i].0).Some? && forall v :: v in t[i].1 ==> v in Lookup(t, t[i].0).value
    {
    }
    UnionTagsCovered(t, t);
  }

  /** The union read key by key, which is how dicts compare: a key only in
      one side keeps that side's list, a key on both gets the union. */
  lemma {:induction false} UnionTagsLookup(t: Tags, u: Tags, k: string)
    requires DistinctKeys(u)
    ensures Lookup(UnionTags(t, u), k) ==
              (match Lookup(u, k)
               case None => Lookup(t, k)
               case Some(vs) => Some(match Lookup(t, k) case None => vs case Some(prev) => UnionValues(prev, vs)))
    decreases |u|
  {
    if |u| > 0 {
      var init := u[..|u| - 1];
      var e := u[|u| - 1];
      assert u == init + [e];
      assert DistinctKeys(init) by {
        assert forall i :: 0 <= i < |init| ==> init[i] == u[i];
      }
      UnionTagsLookup(t, init, k);
      var acc := UnionTags(t, init);
      var merged := (match Lookup(acc, e.0) case None => e.1 case Some(prev) => UnionValues(prev, e.1));
      if e.0 == k {
        assert !HasKey(init, k) by {
          assert forall i :: 0 <= i < |init| ==> init[i] == u[i];
        }
        assert Lookup(u, k) == Some(e.1);
      } else {
        PutOtherKey(acc, e.0, merged, k);
        LookupAppendOther(init, e, k);
      }
    }
  }

  // ------------------------------------------------------------ merge

  datatype MergeError = Clash

  /** The reserved scalars other than the times must agree when both
      records have them. */
  predicate Clashes(p: Package, ex: Option<string>, inc: Option<string>) {
    HasText(p, inc) && HasText(p, ex) && ex != inc
  }

  /** `_merge`: every field the incoming record has is reconciled with the
      existing one -- adopted when the existing record lacks it, otherwise
      start time to the earlier, end time to the later, description
      appended, detail_urls overlaid, tags unioned, and id, source id and
      parent id required to agree. Fields the incoming record lacks stay. */
  function Merge(p: Package, ex: Event, inc: Event): (r: Result<Event, MergeError>)
    ensures r.Failure? <==>
              Clashes(p, ex.id, inc.id) || Clashes(p, ex.sourceId, inc.sourceId) || Clashes(p, ex.parentId, inc.parentId)
    ensures r.Success? ==> r.value.id == (if HasText(p, inc.id) then inc.id else ex.id)
    ensures r.Success? ==> r.value.sourceId == (if HasText(p, inc.sourceId) then inc.sourceId else ex.sourceId)
    ensures r.Success? ==> r.value.parentId == (if HasText(p, inc.parentId) then inc.parentId else ex.parentId)
    ensures r.Success? && inc.startTime.Some? && ex.startTime.Some? ==>
              r.value.startTime == Some(Earlier(ex.startTime.value, inc.startTime.value))
    ensures r.Success? && inc.endTime.Some? && ex.endTime.Some? ==>
              r.value.endTime == Some(Later(ex.endTime.value, inc.endTime.value))
    ensures r.Success? && HasText(p, inc.description) && HasText(p, ex.description) ==>
              r.value.description == Some(MergeDescription(ex.description.value, inc.description.value))
    ensures r.Success? && HasUrls(p, inc.detailUrls) && HasUrls(p, ex.detailUrls) ==>
              r.value.detailUrls == Some(OverlayUrls(ex.detailUrls.value, inc.detailUrls.value))
    ensures r.Success? && HasTags(p, inc.tags) && HasTags(p, ex.tags) ==>
              r.value.tags == Some(UnionTags(ex.tags.value, inc.tags.value))
    ensures r.Success? ==>
              && (inc.startTime.Some? && ex.startTime.None? ==> r.value.startTime == inc.startTime)
              && (inc.endTime.Some? && ex.endTime.None? ==> r.value.endTime == inc.endTime)
              && (HasText(p, inc.description) && !HasText(p, ex.description) ==> r.value.description == inc.description)
              && (HasUrls(p, inc.detailUrls) && !HasUrls(p, ex.detailUrls) ==> r.value.detailUrls == inc.detailUrls)
              && (HasTags(p, inc.tags) && !HasTags(p, ex.tags) ==> r.value.tags == inc.tags)
    ensures r.Success? ==>
              && (inc.startTime.None? ==> r.value.startTime == ex.startTime)
              && (inc.endTime.None? ==> r.value.endTime == ex.endTime)
              && (!HasText(p, inc.description) ==> r.value.description == ex.description)
              && (!HasUrls(p, inc.detailUrls) ==> r.value.detailUrls == ex.detailUrls)
              && (!HasTags(p, inc.tags) ==> r.value.tags == ex.tags)
  {
    if Clashes(p, ex.id, inc.id) || Clashes(p, ex.sourceId, inc.sourceId) || Clashes(p, ex.parentId, inc.parentId) then
      Failure(Clash)
    else
      Success(Event(
        Pick(HasText(p, ex.id), HasText(p, inc.id), ex.id, inc.id, ex.id),
        Pick(HasText(p, ex.sourceId), HasText(p, inc.sourceId), ex.sourceId, inc.sourceId, ex.sourceId),
        Pick(HasText(p, ex.parentId), HasText(p, inc.parentId), ex.parentId, inc.parentId, ex.parentId),
        Pick(ex.startTime.Some?, inc.startTime.Some?, ex.startTime, inc.startTime, Both(ex.startTime, inc.startTime, Earlier)),
        Pick(ex.endTime.Some?, inc.endTime.Some?, ex.endTime, inc.endTime, Both(ex.endTime, inc.endTime, Later)),
        Pick(HasText(p, ex.description), HasText(p, inc.description), ex.description, inc.description,
             Both(ex.description, inc.description, MergeDescription)),
        Pick(HasUrls(p, ex.detailUrls), HasUrls(p, inc.detailUrls), ex.detailUrls, inc.detailUrls,
             Both(ex.detailUrls, inc.detailUrls, OverlayUrls)),
        Pick(HasTags(p, ex.tags), HasTags(p, inc.tags), ex.tags, inc.tags,
             Both(ex.tags, inc.tags, UnionTags))))
  }

  /** One field of `_merge`: kept when the incoming record lacks it,
      adopted when only the incoming record has it, and otherwise the
      field's own combination of the two. */
  function Pick<T>(exSet: bool, incSet: bool, ex: Option<T>, inc: Option<T>, both: Option<T>): (r: Option<T>)
    ensures !incSet ==> r == ex
    ensures incSet && !exSet ==> r == inc
    ensures incSet && exSet ==> r == both
  {
    if !incSet then ex else if !exSet then inc else both
  }

  /** The combination of two set values (existing first). */
  function Both<T>(ex: Option<T>, inc: Option<T>, combine: (T, T) -> T): (r: Option<T>)
    ensures ex.Some? && inc.Some? ==> r == Some(combine(ex.value, inc.value))
  {
    if ex.Some? && inc.Some? then Some(combine(ex.value, inc.value)) else None
  }

  function Earlier(a: Time, b: Time): (m: Time)
    ensures m <= a && m <= b && (m == a || m == b)
  {
    if a <= b then a else b
  }

  function Later(a: Time, b: Time): (m: Time)
    ensures m >= a && m >= b && (m == a || m == b)
  {
    if a >= b then a else b
  }

  /** Tags that are a dict: no key twice. */
  predicate DictTags(e: Event) {
    e.tags.Some? ==> DistinctKeys(e.tags.value)
  }

  /** Merging a record into itself gives it back. */
  lemma MergeSelf(p: Package, e: Event)
    requires DictTags(e)
    ensures Merge(p, e, e) == Success(e)
  {
    if e.description.Some? { MergeDescriptionSelf(e.description.value); }
    if e.detailUrls.Some? { OverlaySelf(e.detailUrls.value); }
    if e.tags.Some? { UnionTagsSelf(e.tags.value); }
    PickSelf(e.startTime.Some?, e.startTime, Earlier);
    PickSelf(e.endTime.Some?, e.endTime, Later);
    PickSelf(HasText(p, e.description), e.description, MergeDescription);
    PickSelf(HasUrls(p, e.detailUrls), e.detailUrls, OverlayUrls);
    PickSelf(HasTags(p, e.tags), e.tags, UnionTags);
  }

  /** A field combined with itself by an idempotent combination stays. */
  lemma PickSelf<T>(isSet: bool, x: Option<T>, combine: (T, T) -> T)
    requires isSet ==> x.Some? && combine(x.value, x.value) == x.value
    ensures Pick(isSet, isSet, x, x, Both(x, x, combine)) == x
  {
  }

  /** Merging the same incoming record a second time changes nothing more:
      a repeated `post_event` with `merge` is harmless. */
  lemma MergeIdempotent(p: Package, ex: Event, inc: Event)
    requires DictTags(inc)
    requires Merge(p, ex, inc).Success?
    ensures Merge(p, Merge(p, ex, inc).value, inc) == Merge(p, ex, inc)
  {
    var m := Merge(p, ex, inc).value;
    PickAgain(ex.startTime.Some?, inc.startTime.Some?, m.startTime.Some?, ex.startTime, inc.startTime, m.startTime, Earlier);
    PickAgain(ex.endTime.Some?, inc.endTime.Some?, m.endTime.Some?, ex.endTime, inc.endTime, m.endTime, Later);
    if HasText(p, inc.description) {
      if HasText(p, ex.description) {
        MergeDescriptionIdempotent(ex.description.value, inc.description.value);
      } else {
        MergeDescriptionSelf(inc.description.value);
      }
    }
    PickAgain(HasText(p, ex.description), HasText(p, inc.description), HasText(p, m.description),
              ex.description, inc.description, m.description, MergeDescription);
    if HasUrls(p, inc.detailUrls) {
      if HasUrls(p, ex.detailUrls) {
        OverlayIdempotent(ex.detailUrls.value, inc.detailUrls.value);
      } else {
        OverlaySelf(inc.detailUrls.value);
      }
    }
    PickAgain(HasUrls(p, ex.detailUrls), HasUrls(p, inc.detailUrls), HasUrls(p, m.detailUrls),
              ex.detailUrls, inc.detailUrls, m.detailUrls, OverlayUrls);
    if HasTags(p, inc.tags) {
      if HasTags(p, ex.tags) {
        UnionTagsIdempotent(ex.tags.value, inc.tags.value);
      } else {
        UnionTagsSelf(inc.tags.value);
      }
    }
    PickAgain(HasTags(p, ex.tags), HasTags(p, inc.tags), HasTags(p, m.tags),
              ex.tags, inc.tags, m.tags, UnionTags);
    MergeFixed(p, m, inc);
  }

  /** A record that every field of `inc` leaves as it is, with no id in
      conflict, is a fixed point of merging `inc`. */
  lemma MergeFixed(p: Package, m: Event, inc: Event)
    requires !Clashes(p, m.id, inc.id) && !Clashes(p, m.sourceId, inc.sourceId) && !Clashes(p, m.parentId, inc.parentId)
    requires HasText(p, inc.id) ==> HasText(p, m.id)
    requires HasText(p, inc.sourceId) ==> HasText(p, m.sourceId)
    requires HasText(p, inc.parentId) ==> HasText(p, m.parentId)
    requires Pick(m.startTime.Some?, inc.startTime.Some?, m.startTime, inc.startTime, Both(m.startTime, inc.startTime, Earlier)) == m.startTime
    requires Pick(m.endTime.Some?, inc.endTime.Some?, m.endTime, inc.endTime, Both(m.endTime, inc.endTime, Later)) == m.endTime
    requires Pick(HasText(p, m.description), HasText(p, inc.description), m.description, inc.description,
                  Both(m.description, inc.description, MergeDescription)) == m.description
    requires Pick(HasUrls(p, m.detailUrls), HasUrls(p, inc.detailUrls), m.detailUrls, inc.detailUrls,
                  Both(m.detailUrls, inc.detailUrls, OverlayUrls)) == m.detailUrls
    requires Pick(HasTags(p, m.tags), HasTags(p, inc.tags), m.tags, inc.tags, Both(m.tags, inc.tags, UnionTags)) == m.tags
    ensures Merge(p, m, inc) == Success(m)
  {
  }

  /** A combined field, combined again with the same incoming value, stays
      when the combination absorbs a repeat. */
  lemma PickAgain<T>(exSet: bool, incSet: bool, mSet: bool, ex: Option<T>, inc: Option<T>, m: Option<T>, combine: (T, T) -> T)
    requires exSet ==> ex.Some?
    requires incSet ==> inc.Some?
    requires m == Pick(exSet, incSet, ex, inc, Both(ex, inc, combine))
    requires incSet ==> mSet && m.Some?
    requires incSet && exSet ==> combine(m.value, inc.value) == m.value
    requires incSet && !exSet ==> combine(inc.value, inc.value) == inc.value
    ensures Pick(mSet, incSet, m, inc, Both(m, inc, combine)) == m
  {
  }

  // ------------------------------------------------------------ update

  /** `_update`: every field the incoming record has (not `None`, in both
      packages) replaces the existing one wholesale. */
  function Update(ex: Event, inc: Event): (r: Event)
    ensures r.id == (if inc.id.Some? then inc.id else ex.id)
    ensures r.sourceId == (if inc.sourceId.Some? then inc.sourceId else ex.sourceId)
    ensures r.parentId == (if inc.parentId.Some? then inc.parentId else ex.parentId)
    ensures r.startTime == (if inc.startTime.Some? then inc.startTime else ex.startTime)
    ensures r.endTime == (if inc.endTime.Some? then inc.endTime else ex.endTime)
    ensures r.description == (if inc.description.Some? then inc.description else ex.description)
    ensures r.detailUrls == (if inc.detailUrls.Some? then inc.detailUrls else ex.detailUrls)
    ensures r.tags == (if inc.tags.Some? then inc.tags else ex.tags)
    ensures Complete(inc) ==> r == inc
    ensures Complete(ex) ==> Complete(r)
  {
    Event(
      Or(inc.id, ex.id), Or(inc.sourceId, ex.sourceId), Or(inc.parentId, ex.parentId),
      Or(inc.startTime, ex.startTime), Or(inc.endTime, ex.endTime),
      Or(inc.description, ex.description), Or(inc.detailUrls, ex.detailUrls), Or(inc.tags, ex.tags))
  }

  /** The first of two optional values that is set. */
  function Or<T>(a: Option<T>, b: Option<T>): (r: Option<T>)
    ensures r.Some? <==> a.Some? || b.Some?
    ensures a.Some? ==> r == a
    ensures a.None? ==> r == b
  {
    if a.Some? then a else b
  }

  /** The record with every field `None`. */
  const Blank := Event(None, None, None, None, None, None, None, None)

  /** An update with nothing set changes nothing. */
  lemma UpdateWithBlank(ex: Event)
    ensures Update(ex, Blank) == ex
  {
  }

  /** Updating twice with the same record is updating once. */
  lemma UpdateIdempotent(ex: Event, inc: Event)
    ensures Update(Update(ex, inc), inc) == Update(ex, inc)
  {
  }

  /** Two successive updates are one update with their combination. */
  lemma UpdateAssociative(a: Event, b: Event, c: Event)
    ensures Update(Update(a, b), c) == Update(a, Update(b, c))
  {
  }

  // ------------------------------------------------------------ post_event

  datatype PostError =
    | EmptyEvent
    | Invalid(reason: ValidationError)
    | UnsupportedOperation
    | MergeConflict
    | Storage(cause: StoreError)

  /** The incoming record has no field set (event_tracking's
      `not event.to_native()`). */
  predicate IsBlank(e: Event) {
    e == Blank
  }

  /** The checks a record passes before `post_event` looks at the store:
      event_tracking rejects a blank record and then runs `validate()`;
      tycho's validators run when the request body becomes an `Event`. */
  function Validate(p: Package, e: Event): (r: Result<Event, PostError>)
    ensures r.Success? ==> r.value == e && e.id.Some?
    ensures p == EventTracking ==> (r.Success? <==> !IsBlank(e) && ValidTrackingEvent(e))
    ensures p == Tycho ==> (r.Success? <==> ValidTychoEvent(e))
  {
    match p
    case EventTracking =>
      if IsBlank(e) then Failure(EmptyEvent)
      else (match ValidateTrackingEvent(e)
            case Failure(err) => Failure(Invalid(err))
            case Success(v) => Success(v))
    case Tycho =>
      match ValidateTychoEvent(e)
      case Failure(err) => Failure(Invalid(err))
      case Success(v) => Success(v)
  }

  predicate SupportedOperation(op: string) {
    op == "merge" || op == "update"
  }

  /** The record `post_event` writes: the incoming one when its id is not
      stored, otherwise the stored one merged with or updated by it. */
  function Reconciled(p: Package, c: Collection, inc: Event, op: string, uuid: string, now: Time): (r: Result<Event, PostError>)
    requires inc.id.Some?
    ensures !Contains(c, inc.id.value) ==> r == Success(inc)
    ensures r.Success? && Contains(c, inc.id.value) ==>
              FindById(c, inc.id.value, uuid, now).Success? &&
              var found := FindById(c, inc.id.value, uuid, now).value;
              if op == "merge" then Merge(p, found, inc) == Success(r.value) else r.value == Update(found, inc)
    ensures r.Success? ==> r.value.id == inc.id
    ensures r.Failure? ==> r.error == MergeConflict || r.error.Storage?
  {
    match FindById(c, inc.id.value, uuid, now)
    case Failure(err) =>
      if err == NotFound then Success(inc) else Failure(Storage(err))
    case Success(found) =>
      if op == "merge" then
        match Merge(p, found, inc)
        case Failure(_) => Failure(MergeConflict)
        case Success(m) => Success(m)
      else Success(Update(found, inc))
  }

  /** `post_event`: validate, check the operation, reconcile with the stored
      record and write the result with `update_by_id` under the incoming
      id. On success the new collection and the written record are
      returned; on failure nothing is written. */
  function PostEvent(p: Package, c: Collection, inc: Event, op: string, insert: bool, uuid: string, now: Time): (r: Result<(Collection, Event), PostError>)
    ensures Validate(p, inc).Failure? ==> r == Failure(Validate(p, inc).error)
    ensures Validate(p, inc).Success? && !SupportedOperation(op) ==> r == Failure(UnsupportedOperation)
    ensures r.Success? ==>
              && SupportedOperation(op)
              && Reconciled(p, c, inc, op, uuid, now) == Success(r.value.1)
              && UpdateById(c, inc.id.value, r.value.1, insert, now) == Success(r.value.0)
              && r.value.1.id == inc.id
  {
    match Validate(p, inc)
    case Failure(err) => Failure(err)
    case Success(_) =>
      if !SupportedOperation(op) then Failure(UnsupportedOperation)
      else
        match Reconciled(p, c, inc, op, uuid, now)
        case Failure(err) => Failure(err)
        case Success(e) =>
          match UpdateById(c, inc.id.value, e, insert, now)
          case Failure(err) => Failure(Storage(err))
          case Success(c') => Success((c', e))
  }

  /** An id that is not stored: the incoming record is what is written,
      and without `insert` nothing is written at all. */
  lemma PostMissingWritesIncoming(p: Package, c: Collection, inc: Event, op: string, insert: bool, uuid: string, now: Time)
    requires Validate(p, inc).Success? && SupportedOperation(op)
    requires !Contains(c, inc.id.value)
    ensures UpdateById(c, inc.id.value, inc, insert, now).Success?
    ensures PostEvent(p, c, inc, op, insert, uuid, now) == Success((UpdateById(c, inc.id.value, inc, insert, now).value, inc))
    ensures !insert ==> PostEvent(p, c, inc, op, insert, uuid, now).value.0 == c
  {
  }

  /** A merge conflict fails the request before anything is written. */
  lemma PostConflictWritesNothing(p: Package, c: Collection, inc: Event, insert: bool, uuid: string, now: Time)
    requires Validate(p, inc).Success?
    requires FindById(c, inc.id.value, uuid, now).Success?
    requires Merge(p, FindById(c, inc.id.value, uuid, now).value, inc).Failure?
    ensures PostEvent(p, c, inc, "merge", insert, uuid, now) == Failure(MergeConflict)
  {
  }

  /** On tycho, whose records have every field set, `update` writes the
      incoming record as it is. */
  lemma PostUpdateWritesComplete(c: Collection, inc: Event, insert: bool, uuid: string, now: Time)
    requires Complete(inc)
    requires PostEvent(Tycho, c, inc, "update", insert, uuid, now).Success?
    ensures PostEvent(Tycho, c, inc, "update", insert, uuid, now).value.1 == inc
  {
  }

  /** What `post_event` wrote is what `find_by_id` then reads. */
  lemma PostThenFind(p: Package, c: Collection, inc: Event, op: string, insert: bool, uuid: string, now: Time, later: Time)
    requires WellFormed(c)
    requires PostEvent(p, c, inc, op, insert, uuid, now).Success?
    requires Contains(c, inc.id.value) || insert
    requires Encodable(PostEvent(p, c, inc, op, insert, uuid, now).value.1)
    ensures FindById(PostEvent(p, c, inc, op, insert, uuid, now).value.0, inc.id.value, uuid, later) ==
              Success(PostEvent(p, c, inc, op, insert, uuid, now).value.1)
  {
    var e := PostEvent(p, c, inc, op, insert, uuid, now).value.1;
    UpdateThenFind(c, inc.id.value, e, insert, now, uuid, later);
  }

  /** Posting the same record with `merge` twice writes the same record
      both times. */
  lemma PostMergeTwice(p: Package, c: Collection, inc: Event, insert: bool, uuid: string, now: Time, later: Time)
    requires WellFormed(c) && DictTags(inc)
    requires PostEvent(p, c, inc, "merge", insert, uuid, now).Success?
    requires Encodable(PostEvent(p, c, inc, "merge", insert, uuid, now).value.1)
    ensures var (c1, m) := PostEvent(p, c, inc, "merge", insert, uuid, now).value;
            PostEvent(p, c1, inc, "merge", insert, uuid, later).Success? &&
            PostEvent(p, c1, inc, "merge", insert, uuid, later).value.1 == m
  {
    var id := inc.id.value;
    var (c1, m) := PostEvent(p, c, inc, "merge", insert, uuid, now).value;
    if Contains(c, id) {
      var found := FindById(c, id, uuid, now).value;
      UpdateThenFind(c, id, m, insert, now, uuid, later);
      MergeIdempotent(p, found, inc);
      assert Reconciled(p, c1, inc, "merge", uuid, later) == Success(m);
    } else if insert {
      UpdateThenFind(c, id, m, insert, now, uuid, later);
      MergeSelf(p, inc);
      assert Reconciled(p, c1, inc, "merge", uuid, later) == Success(m);
    } else {
      assert c1 == c;
    }
  }
}

=== FILE: records.dfy ===
/** The Event record shared by both packages, its field validators and its
    two constructors: the schematics model of `event_tracking` (absent
    fields are `None`) and the attrs class of `tycho` (absent fields take
    falsy defaults and are never `None`). */
module Records {
  import opened Wrappers
  import opened Timestamps
  import opened TagMap

  /** `detail_urls`: label -> URL; a value may be `None`. */
  type Urls = map<string, Option<string>>

  /** An Event record; `None` stands for Python's `None`. */
  datatype Event = Event(
    id: Option<string>,
    sourceId: Option<string>,
    parentId: Option<string>,
    startTime: Option<Time>,
    endTime: Option<Time>,
    description: Option<string>,
    detailUrls: Option<Urls>,
    tags: Option<Tags>)

  const MaxLength: nat := 100

  /** The value a field validator receives. The validators dispatch on the
      Python type of that value, and a dict of tags may hold `None` keys,
      `None` value lists and `None` elements, which a record cannot. */
  datatype FieldValue =
    | Str(s: string)
    | Dict(entries: seq<(Option<string>, Option<seq<Option<string>>>)>)
    | NoneValue
    | OtherValue

  datatype ValidationError =
    | TooLong
    | NoneTagKey
    | NoneTagValues
    | NoneTagElement
    | EmptyValue
    | NoneNotAllowed
    | Required

  /** A tag key the validators accept: neither `None` nor the string "None". */
  predicate AcceptableKey(k: Option<string>) {
    k.Some? && k.value != "None"
  }

  /** One tag element the validators accept. */
  predicate AcceptableElement(v: Option<string>) {
    v.Some? && |v.value| <= MaxLength
  }

  /** A tags dict the validators accept, stated over the whole dict. */
  predicate AcceptableEntries(es: seq<(Option<string>, Option<seq<Option<string>>>)>) {
    forall i :: 0 <= i < |es| ==>
      AcceptableKey(es[i].0) && es[i].1.Some? &&
      forall j :: 0 <= j < |es[i].1.value| ==> AcceptableElement(es[i].1.value[j])
  }

  /** The loop over one value list. */
  function CheckElements(vs: seq<Option<string>>): (r: Option<ValidationError>)
    ensures r.None? <==> forall j :: 0 <= j < |vs| ==> AcceptableElement(vs[j])
    ensures r == Some(TooLong) ==> exists j :: 0 <= j < |vs| && vs[j].Some? && |vs[j].value| > MaxLength
  {
    if |vs| == 0 then None
    else if vs[0].None? then Some(NoneTagElement)
    else if |vs[0].value| > MaxLength then Some(TooLong)
    else
      var r := CheckElements(vs[1..]);
      assert forall j :: 1 <= j < |vs| ==> vs[1..][j - 1] == vs[j];
      r
  }

  /** The loop over the keys of a tags dict. */
  function CheckEntries(es: seq<(Option<string>, Option<seq<Option<string>>>)>): (r: Option<ValidationError>)
    ensures r.None? <==> AcceptableEntries(es)
  {
    if |es| == 0 then None
    else if !AcceptableKey(es[0].0) then Some(NoneTagKey)
    else if es[0].1.None? then Some(NoneTagValues)
    else match CheckElements(es[0].1.value)
      case Some(err) => Some(err)
      case None =>
        var r := CheckEntries(es[1..]);
        assert forall i :: 1 <= i < |es| ==> es[1..][i - 1] == es[i];
        r
  }

  /** `ensure_maxlength_100_chars_and_tags_key_val_not_none`: a string may be
      at most 100 characters; a dict must have no `None`/"None" key, no
      `None` value list and no `None` or over-long element; anything else
      passes. A value that passes is returned unchanged. */
  function EnsureMaxLengthAndTagsNotNone(v: FieldValue): (r: Result<FieldValue, ValidationError>)
    ensures v.Str? ==> (r.Success? <==> |v.s| <= MaxLength)
    ensures v.Dict? ==> (r.Success? <==> AcceptableEntries(v.entries))
    ensures v.NoneValue? || v.OtherValue? ==> r.Success?
    ensures r.Success? ==> r.value == v
  {
    match v
    case Str(s) => if |s| > MaxLength then Failure(TooLong) else Success(v)
    case Dict(es) =>
      (match CheckEntries(es)
       case Some(err) => Failure(err)
       case None => Success(v))
    case _ => Success(v)
  }

  /** Python truthiness of a field value; `OtherValue` (a datetime) is truthy. */
  predicate Falsy(v: FieldValue) {
    v.NoneValue? || (v.Str? && v.s == "") || (v.Dict? && v.entries == [])
  }

  /** tycho's `ensure_value_is_not_empty`: rejects every falsy value. */
  function EnsureNotEmpty(v: FieldValue): (r: Result<FieldValue, ValidationError>)
    ensures r.Success? <==> !Falsy(v)
    ensures r.Success? ==> r.value == v
  {
    if Falsy(v) then Failure(EmptyValue) else Success(v)
  }

  /** `ensure_value_is_not_none`: rejects only `None`. */
  function EnsureNotNone(v: FieldValue): (r: Result<FieldValue, ValidationError>)
    ensures r.Success? <==> !v.NoneValue?
    ensures r.Success? ==> r.value == v
  {
    if v.NoneValue? then Failure(NoneNotAllowed) else Success(v)
  }

  // ---- record fields as the validators see them ----

  function StrField(o: Option<string>): FieldValue {
    match o
    case None => NoneValue
    case Some(s) => Str(s)
  }

  function TimeField(o: Option<Time>): FieldValue {
    if o.None? then NoneValue else OtherValue
  }

  function ElementsField(vs: seq<string>): (r: seq<Option<string>>)
    ensures |r| == |vs| && forall j :: 0 <= j < |vs| ==> r[j] == Some(vs[j])
  {
    if |vs| == 0 then [] else [Some(vs[0])] + ElementsField(vs[1..])
  }

  function EntriesField(t: Tags): (r: seq<(Option<string>, Option<seq<Option<string>>>)>)
    ensures |r| == |t|
    ensures forall i :: 0 <= i < |t| ==> r[i] == (Some(t[i].0), Some(ElementsField(t[i].1)))
  {
    if |t| == 0 then [] else [(Some(t[0].0), Some(ElementsField(t[0].1)))] + EntriesField(t[1..])
  }

  function TagsField(o: Option<Tags>): FieldValue {
    match o
    case None => NoneValue
    case Some(t) => Dict(EntriesField(t))
  }

  /** The tag constraint on a record: no key "None", no element over 100 characters. */
  predicate ValidTags(t: Tags) {
    forall i :: 0 <= i < |t| ==>
      t[i].0 != "None" && forall j :: 0 <= j < |t[i].1| ==> |t[i].1[j]| <= MaxLength
  }

  lemma TagsFieldAcceptable(t: Tags)
    ensures AcceptableEntries(EntriesField(t)) <==> ValidTags(t)
  {
    var es := EntriesField(t);
    if ValidTags(t) {
      forall i | 0 <= i < |es|
        ensures AcceptableKey(es[i].0) && es[i].1.Some?
        ensures forall j :: 0 <= j < |es[i].1.value| ==> AcceptableElement(es[i].1.value[j])
      {
        assert es[i] == (Some(t[i].0), Some(ElementsField(t[i].1)));
      }
    }
    if AcceptableEntries(es) {
      forall i | 0 <= i < |t|
        ensures t[i].0 != "None"
        ensures forall j :: 0 <= j < |t[i].1| ==> |t[i].1[j]| <= MaxLength
      {
        assert es[i] == (Some(t[i].0), Some(ElementsField(t[i].1)));
        forall j | 0 <= j < |t[i].1|
          ensures |t[i].1[j]| <= MaxLength
        {
          assert AcceptableElement(es[i].1.value[j]);
        }
      }
    }
  }

  lemma TagsFieldValid(o: Option<Tags>)
    ensures EnsureMaxLengthAndTagsNotNone(TagsField(o)).Success? <==> (o.Some? ==> ValidTags(o.value))
  {
    if o.Some? {
      TagsFieldAcceptable(o.value);
    }
  }

  predicate ShortOrNone(o: Option<string>) {
    o.None? || |o.value| <= MaxLength
  }

  /** What `Event.validate()` of event_tracking demands: an id of at most 100
      characters, source/parent ids of at most 100 characters when set, both
      times set, and acceptable tags when set. The id may be empty. */
  predicate ValidTrackingEvent(e: Event) {
    && e.id.Some? && |e.id.value| <= MaxLength
    && ShortOrNone(e.sourceId) && ShortOrNone(e.parentId)
    && e.startTime.Some? && e.endTime.Some?
    && (e.tags.Some? ==> ValidTags(e.tags.value))
  }

  /** `Event.validate()` of event_tracking. The model reports a single
      error, checking the fields in declaration order; which errors the
      library collects beyond that one is not modelled. */
  function ValidateTrackingEvent(e: Event): (r: Result<Event, ValidationError>)
    ensures r.Success? <==> ValidTrackingEvent(e)
    ensures r.Success? ==> r.value == e
  {
    if e.id.None? then Failure(Required)
    else if EnsureMaxLengthAndTagsNotNone(StrField(e.id)).Failure? then Failure(TooLong)
    else if EnsureMaxLengthAndTagsNotNone(StrField(e.sourceId)).Failure? then Failure(TooLong)
    else if EnsureMaxLengthAndTagsNotNone(StrField(e.parentId)).Failure? then Failure(TooLong)
    else if EnsureNotNone(TimeField(e.startTime)).Failure? then Failure(Required)
    else if EnsureNotNone(TimeField(e.endTime)).Failure? then Failure(Required)
    else
      var tv := EnsureMaxLengthAndTagsNotNone(TagsField(e.tags));
      TagsFieldValid(e.tags);
      if tv.Failure? then Failure(tv.error) else Success(e)
  }

  /** What tycho's attrs validators demand: a non-empty id of at most 100
      characters, source/parent ids of at most 100 characters, both times
      set, and acceptable tags. */
  predicate ValidTychoEvent(e: Event) {
    && e.id.Some? && 0 < |e.id.value| <= MaxLength
    && ShortOrNone(e.sourceId) && ShortOrNone(e.parentId)
    && e.startTime.Some? && e.endTime.Some?
    && (e.tags.Some? ==> ValidTags(e.tags.value))
  }

  /** tycho's attribute validators, run in declaration order. */
  function ValidateTychoEvent(e: Event): (r: Result<Event, ValidationError>)
    ensures r.Success? <==> ValidTychoEvent(e)
    ensures r.Success? ==> r.value == e
  {
    if EnsureNotEmpty(StrField(e.id)).Failure? then Failure(EmptyValue)
    else if EnsureMaxLengthAndTagsNotNone(StrField(e.id)).Failure? then Failure(TooLong)
    else if EnsureMaxLengthAndTagsNotNone(StrField(e.sourceId)).Failure? then Failure(TooLong)
    else if EnsureMaxLengthAndTagsNotNone(StrField(e.parentId)).Failure? then Failure(TooLong)
    else if EnsureNotNone(TimeField(e.startTime)).Failure? then Failure(NoneNotAllowed)
    else if EnsureNotNone(TimeField(e.endTime)).Failure? then Failure(NoneNotAllowed)
    else
      var tv := EnsureMaxLengthAndTagsNotNone(TagsField(e.tags));
      TagsFieldValid(e.tags);
      if tv.Failure? then Failure(tv.error) else Success(e)
  }

  /** Every field of the record is set (never `None`). */
  predicate Complete(e: Event) {
    && e.id.Some? && e.sourceId.Some? && e.parentId.Some?
    && e.startTime.Some? && e.endTime.Some?
    && e.description.Some? && e.detailUrls.Some? && e.tags.Some?
  }

  /** Both times set and free of sub-millisecond digits. */
  predicate TimesAligned(e: Event) {
    && e.startTime.Some? && IsMillisecondAligned(e.startTime.value)
    && e.endTime.Some? && IsMillisecondAligned(e.endTime.value)
  }

  /** Building an event_tracking `Event` from a raw dict: fields not supplied
      (`None` in `args`) take their defaults -- a generated id, the current
      time, an empty tags dict -- and every time passes through
      `IgnoreMicroseconds`. Source/parent ids, description and detail_urls
      stay `None`. Construction does not validate. */
  function NewTrackingEvent(args: Event, uuid: string, now: Time): (r: Event)
    ensures r.id == Some(args.id.GetOr(uuid)) && r.tags == Some(args.tags.GetOr([]))
    ensures TimesAligned(r)
    ensures r.startTime.value <= args.startTime.GetOr(now) < r.startTime.value + MicrosPerMilli
    ensures r.endTime.value <= args.endTime.GetOr(now) < r.endTime.value + MicrosPerMilli
    ensures r.sourceId == args.sourceId && r.parentId == args.parentId
    ensures r.description == args.description && r.detailUrls == args.detailUrls
  {
    Event(
      Some(args.id.GetOr(uuid)),
      args.sourceId,
      args.parentId,
      Some(IgnoreMicroseconds(args.startTime.GetOr(now))),
      Some(IgnoreMicroseconds(args.endTime.GetOr(now))),
      args.description,
      args.detailUrls,
      Some(args.tags.GetOr([])))
  }

  /** Building a tycho `Event`: defaults are a generated id, "" for
      source/parent id and description, `{}` for detail_urls and tags, and
      the current time; times are converted by `ignore_microseconds`, then
      the validators run. */
  function NewTychoEvent(args: Event, uuid: string, now: Time): (r: Result<Event, ValidationError>)
    ensures r.Success? ==> Complete(r.value) && TimesAligned(r.value) && ValidTychoEvent(r.value)
    ensures r.Success? ==> r.value.id == Some(args.id.GetOr(uuid))
    ensures r.Success? ==> r.value.sourceId == Some(args.sourceId.GetOr(""))
    ensures r.Success? ==> r.value.parentId == Some(args.parentId.GetOr(""))
    ensures r.Success? ==> r.value.description == Some(args.description.GetOr(""))
    ensures r.Success? ==> r.value.detailUrls == Some(args.detailUrls.GetOr(map[]))
    ensures r.Success? ==> r.value.tags == Some(args.tags.GetOr([]))
    ensures r.Success? ==> r.value.startTime == Some(IgnoreMicroseconds(args.startTime.GetOr(now)))
    ensures r.Success? ==> r.value.endTime == Some(IgnoreMicroseconds(args.endTime.GetOr(now)))
    ensures args.id == Some("") ==> r.Failure?
    ensures ((args.id.None? ==> 0 < |uuid| <= MaxLength) && (args.id.Some? ==> 0 < |args.id.value| <= MaxLength)
             && ShortOrNone(args.sourceId) && ShortOrNone(args.parentId)
             && ValidTags(args.tags.GetOr([]))) ==> r.Success?
  {
    var e := Event(
      Some(args.id.GetOr(uuid)),
      Some(args.sourceId.GetOr("")),
      Some(args.parentId.GetOr("")),
      Some(IgnoreMicroseconds(args.startTime.GetOr(now))),
      Some(IgnoreMicroseconds(args.endTime.GetOr(now))),
      Some(args.description.GetOr("")),
      Some(args.detailUrls.GetOr(map[])),
      Some(args.tags.GetOr([])));
    ValidateTychoEvent(e)
  }
}

=== FILE: store.dfy ===
/** The `Event` collection wrapper (`event_tracking/db/event`): the store
    operations over the collection of storage documents.

    The collection is a sequence of documents in natural (insertion) order.
    Every query that returns several documents returns them in that order,
    unless it sorts. The database always gives a stored document an `_id` and
    never stores two with the same one; `WellFormed` states that, and every
    write is shown to keep it. */
module Store {
  import opened Wrappers
  import opened Timestamps
  import opened Records
  import opened Codec

  type Collection = seq<StorageDoc>

  datatype StoreError =
    | NotFound                     // HTTPNotFound from find_by_id
    | Corrupt(err: DecodeError)    // ValueError while decoding a stored document
    | NegativeCount                // ValueError: count < 0
    | PageBelowOne                 // ValueError: page < 1
    | IdAltered                    // the replacement document carries another _id
    | DuplicateId                  // an insert with an _id already stored
    | UnmappedCount(n: nat)        // KeyError in delete_by_id's result map

  predicate HasId(d: StorageDoc, id: string) {
    d.id == Some(id)
  }

  predicate Contains(c: Collection, id: string) {
    exists i :: 0 <= i < |c| && HasId(c[i], id)
  }

  /** Every document has an `_id`, and no two share one. */
  predicate WellFormed(c: Collection) {
    && (forall i :: 0 <= i < |c| ==> c[i].id.Some?)
    && (forall i, j :: 0 <= i < j < |c| ==> c[i].id != c[j].id)
  }

  // ------------------------------------------------------------ selection

  /** The query conditions the store uses, as data. */
  datatype Filter =
    | IdIs(id: string)             // {"_id": id}
    | IdIsNot(id: string)          // what remove({"_id": id}) leaves
    | TagIn(tag: string)           // {"tags": {"$in": [tag]}}
    | QueryMatch(q: Query)         // the query `find` builds

  /** The arguments of `find`. */
  datatype Query = Query(
    tags: Option<seq<string>>,
    frm: Option<Time>,
    to: Option<Time>,
    useUpdateTime: bool,
    count: int,
    page: int)

  /** The values of the selected time field: the `time` array, or
      `update_time` as a one-element array; `None` when the field is missing. */
  function TimeValues(d: StorageDoc, useUpdateTime: bool): (r: Option<seq<Time>>)
    ensures useUpdateTime ==> (r.Some? <==> d.updateTime.Some?)
    ensures useUpdateTime && d.updateTime.Some? ==> r == Some([d.updateTime.value])
    ensures !useUpdateTime ==> r == d.time
  {
    if useUpdateTime then
      (if d.updateTime.Some? then Some([d.updateTime.value]) else None)
    else d.time
  }

  /** `{"$all": tags}`: every requested tag is present. An empty `$all`
      list matches no document, and neither does a missing `tags` field. */
  predicate HasAllTags(d: StorageDoc, tags: seq<string>) {
    && |tags| > 0
    && d.tags.Some?
    && forall t :: t in tags ==> t in d.tags.value
  }

  /** `{"$gte": frm}` on an array field: some element is at or after `frm`. */
  predicate SomeAtOrAfter(vals: Option<seq<Time>>, frm: Time) {
    vals.Some? && exists v :: v in vals.value && v >= frm
  }

  /** `{"$lt": to}` on an array field: some element is before `to`. */
  predicate SomeBefore(vals: Option<seq<Time>>, to: Time) {
    vals.Some? && exists v :: v in vals.value && v < to
  }

  predicate MatchesQuery(d: StorageDoc, q: Query) {
    var vals := TimeValues(d, q.useUpdateTime);
    && (q.tags.None? || HasAllTags(d, q.tags.value))
    && (q.frm.None? || SomeAtOrAfter(vals, q.frm.value))
    && (q.to.None? || SomeBefore(vals, q.to.value))
  }

  predicate Keeps(f: Filter, d: StorageDoc) {
    match f
    case IdIs(id) => HasId(d, id)
    case IdIsNot(id) => !HasId(d, id)
    case TagIn(tag) => d.tags.Some? && tag in d.tags.value
    case QueryMatch(q) => MatchesQuery(d, q)
  }

  /** The documents a filter keeps, in natural order. */
  function Select(c: Collection, f: Filter): (r: Collection)
    ensures |r| <= |c|
    ensures forall x :: x in r <==> x in c && Keeps(f, x)
  {
    if |c| == 0 then []
    else
      var init, last := c[..|c| - 1], c[|c| - 1];
      assert c == init + [last];
      Select(init, f) + (if Keeps(f, last) then [last] else [])
  }

  /** Selecting from a concatenation selects from each part. */
  lemma {:induction false} SelectAppend(a: Collection, b: Collection, f: Filter)
    ensures Select(a + b, f) == Select(a, f) + Select(b, f)
    decreases |b|
  {
    if |b| == 0 {
      assert a + b == a;
    } else {
      var init, last := b[..|b| - 1], b[|b| - 1];
      assert b == init + [last];
      assert a + b == (a + init) + [last];
      SelectSnoc(a + init, last, f);
      SelectSnoc(init, last, f);
      SelectAppend(a, init, f);
      ConcatAssoc(Select(a, f), Select(init, f), if Keeps(f, last) then [last] else []);
    }
  }

  lemma ConcatAssoc<T>(x: seq<T>, y: seq<T>, z: seq<T>)
    ensures (x + y) + z == x + (y + z)
  {
  }

  /** Selecting from a collection with one more document at the end. */
  lemma SelectSnoc(c: Collection, d: StorageDoc, f: Filter)
    ensures Select(c + [d], f) == Select(c, f) + (if Keeps(f, d) then [d] else [])
  {
    assert (c + [d])[..|c|] == c;
  }

  /** A filter that keeps everything gives the collection back unchanged. */
  lemma {:induction false} SelectKeepsAll(c: Collection, f: Filter)
    requires forall i :: 0 <= i < |c| ==> Keeps(f, c[i])
    ensures Select(c, f) == c
    decreases |c|
  {
    if |c| > 0 {
      var init := c[..|c| - 1];
      SelectKeepsAll(init, f);
      assert init + [c[|c| - 1]] == c;
    }
  }

  // ------------------------------------------------------------ find_by_id

  /** The position of the last document with that `_id`. */
  function LastMatch(c: Collection, id: string): (r: Option<nat>)
    ensures r.None? <==> !Contains(c, id)
    ensures r.Some? ==> r.value < |c| && HasId(c[r.value], id)
    ensures r.Some? ==> forall j :: r.value < j < |c| ==> !HasId(c[j], id)
  {
    if |c| == 0 then None
    else if HasId(c[|c| - 1], id) then Some(|c| - 1)
    else
      var r := LastMatch(c[..|c| - 1], id);
      assert forall j :: 0 <= j < |c| - 1 ==> c[..|c| - 1][j] == c[j];
      r
  }

  /** The position of the first document with that `_id`. */
  function FirstMatch(c: Collection, id: string): (r: Option<nat>)
    ensures r.None? <==> !Contains(c, id)
    ensures r.Some? ==> r.value < |c| && HasId(c[r.value], id)
    ensures r.Some? ==> forall j :: 0 <= j < r.value ==> !HasId(c[j], id)
  {
    if |c| == 0 then None
    else if HasId(c[0], id) then Some(0)
    else match FirstMatch(c[1..], id)
      case None =>
        assert forall j :: 1 <= j < |c| ==> c[1..][j - 1] == c[j];
        None
      case Some(i) => Some(i + 1)
  }

  /** In a well-formed collection a document is found at one position only. */
  lemma MatchUnique(c: Collection, id: string, i: nat)
    requires WellFormed(c) && i < |c| && HasId(c[i], id)
    ensures FirstMatch(c, id) == Some(i) && LastMatch(c, id) == Some(i)
  {
    var f, l := FirstMatch(c, id), LastMatch(c, id);
    assert f.Some? && l.Some?;
    assert !(f.value < i) && !(i < f.value);
    assert !(l.value < i) && !(i < l.value);
  }

  /** `find_by_id`: the cursor loop keeps the last matching document, which
      is then decoded; no match is `NotFound`. `uuid` and `now` are the
      decoder's default factories. */
  function FindById(c: Collection, id: string, uuid: string, now: Time): (r: Result<Event, StoreError>)
    ensures r == Failure(NotFound) <==> !Contains(c, id)
    ensures r.Success? ==> r.value.id == Some(id) && TimesAligned(r.value)
    ensures r.Failure? && Contains(c, id) ==> r.error.Corrupt?
  {
    match LastMatch(c, id)
    case None => Failure(NotFound)
    case Some(i) =>
      match Decode(Some(c[i]), uuid, now)
      case Failure(err) => Failure(Corrupt(err))
      case Success(e) => Success(e)
  }

  // ------------------------------------------------------------ writes

  /** The replacement document `update(... {"_id": id}, new_data)` stores:
      the encoded record, with `_id` filled in from the query when the record
      has none. A record that names another `_id` cannot replace this one. */
  function Replacement(id: string, e: Event, now: Time): (r: Result<StorageDoc, StoreError>)
    ensures r.Success? <==> e.id.None? || e.id == Some(id)
    ensures r.Success? ==> HasId(r.value, id) && r.value.(id := e.id) == Encode(e, now)
  {
    var d := Encode(e, now);
    if d.id.Some? && d.id.value != id then Failure(IdAltered)
    else Success(d.(id := Some(id)))
  }

  /** `update_by_id`: replaces the first document with that `_id` wholesale.
      With no such document it writes nothing, or, with `insert`, adds the
      replacement at the end. */
  function UpdateById(c: Collection, id: string, e: Event, insert: bool, now: Time): (r: Result<Collection, StoreError>)
    ensures !Contains(c, id) && !insert ==> r == Success(c)
    ensures r.Failure? <==> (Contains(c, id) || insert) && Replacement(id, e, now).Failure?
    ensures r.Success? && Contains(c, id) ==>
              var i := FirstMatch(c, id).value;
              r.value == c[i := Replacement(id, e, now).value]
    ensures r.Success? && !Contains(c, id) && insert ==>
              r.value == c + [Replacement(id, e, now).value]
  {
    match FirstMatch(c, id)
    case Some(i) =>
      (match Replacement(id, e, now)
       case Failure(err) => Failure(err)
       case Success(d) => Success(c[i := d]))
    case None =>
      if !insert then Success(c)
      else match Replacement(id, e, now)
        case Failure(err) => Failure(err)
        case Success(d) => Success(c + [d])
  }

  /** `save`: a record with an id is upserted under it; one without is
      inserted under a generated `_id` (`freshId`), which must not be stored
      already. */
  function Save(c: Collection, e: Event, now: Time, freshId: string): (r: Result<Collection, StoreError>)
    ensures e.id.Some? ==> r.Success?
    ensures e.id.None? ==> (r.Success? <==> !Contains(c, freshId))
    ensures r.Success? ==> |r.value| == |c| || |r.value| == |c| + 1
  {
    if e.id.Some? then
      UpdateById(c, e.id.value, e, true, now)
    else if Contains(c, freshId) then Failure(DuplicateId)
    else Success(c + [Encode(e, now).(id := Some(freshId))])
  }

  /** `delete_by_id`: every document with that `_id` is removed, and the
      removed count `n` is looked up in `{0: False, 1: True}`; any other count
      is a `KeyError` raised after the removal. */
  function DeleteById(c: Collection, id: string): (r: (Collection, Result<bool, StoreError>))
    ensures forall x :: x in r.0 <==> x in c && !HasId(x, id)
    ensures r.1 == Success(false) <==> !Contains(c, id)
    ensures r.1 == Success(false) ==> r.0 == c
    ensures r.1 == Success(true) ==> |r.0| == |c| - 1
  {
    var removed := Select(c, IdIs(id));
    var rest := Select(c, IdIsNot(id));
    SelectSizes(c, id);
    RemovedIffContains(c, id);
    (rest, if |removed| == 0 then Success(false)
           else if |removed| == 1 then Success(true)
           else Failure(UnmappedCount(|removed|)))
  }

  /** Something is removed exactly when the `_id` is stored. */
  lemma RemovedIffContains(c: Collection, id: string)
    ensures |Select(c, IdIs(id))| == 0 <==> !Contains(c, id)
    ensures !Contains(c, id) ==> Select(c, IdIsNot(id)) == c
  {
    if !Contains(c, id) {
      SelectKeepsAll(c, IdIsNot(id));
    } else {
      var i :| 0 <= i < |c| && HasId(c[i], id);
      assert c[i] in Select(c, IdIs(id));
    }
  }

  /** The documents with and without an `_id` add up to the collection. */
  lemma {:induction false} SelectSizes(c: Collection, id: string)
    ensures |Select(c, IdIs(id))| + |Select(c, IdIsNot(id))| == |c|
    decreases |c|
  {
    if |c| > 0 {
      SelectSizes(c[..|c| - 1], id);
    }
  }

  /** In a well-formed collection at most one document has a given `_id`. */
  lemma {:induction false} AtMostOneMatch(c: Collection, id: string)
    requires WellFormed(c)
    ensures |Select(c, IdIs(id))| <= 1
    decreases |c|
  {
    if |c| > 0 {
      var init, last := c[..|c| - 1], c[|c| - 1];
      assert WellFormed(init) by {
        assert forall i :: 0 <= i < |init| ==> init[i] == c[i];
      }
      AtMostOneMatch(init, id);
      if HasId(last, id) {
        assert !Contains(init, id) by {
          assert forall i :: 0 <= i < |init| ==> init[i].id == c[i].id != c[|c| - 1].id;
        }
        RemovedIffContains(init, id);
      }
    }
  }

  // ------------------------------------------------------------ invariant

  lemma UpdateByIdKeepsWellFormed(c: Collection, id: string, e: Event, insert: bool, now: Time)
    requires WellFormed(c)
    requires UpdateById(c, id, e, insert, now).Success?
    ensures WellFormed(UpdateById(c, id, e, insert, now).value)
  {
    var r := UpdateById(c, id, e, insert, now).value;
    if Contains(c, id) {
      var i := FirstMatch(c, id).value;
      assert forall j :: 0 <= j < |r| ==> r[j].id == c[j].id;
    } else if insert {
      assert forall j :: 0 <= j < |c| ==> r[j] == c[j] && c[j].id != Some(id);
    }
  }

  lemma SaveKeepsWellFormed(c: Collection, e: Event, now: Time, freshId: string)
    requires WellFormed(c)
    requires Save(c, e, now, freshId).Success?
    ensures WellFormed(Save(c, e, now, freshId).value)
  {
    if e.id.Some? {
      UpdateByIdKeepsWellFormed(c, e.id.value, e, true, now);
    } else {
      var r := Save(c, e, now, freshId).value;
      assert forall j :: 0 <= j < |c| ==> r[j] == c[j] && c[j].id != Some(freshId);
    }
  }

  /** Deleting from a well-formed collection answers without error, true
      exactly when the `_id` was stored, and leaves a well-formed collection. */
  lemma DeleteByIdWellFormed(c: Collection, id: string)
    requires WellFormed(c)
    ensures DeleteById(c, id).1 == Success(Contains(c, id))
    ensures WellFormed(DeleteById(c, id).0)
  {
    AtMostOneMatch(c, id);
    SelectSubsequenceWellFormed(c, IdIsNot(id));
  }

  /** Selection keeps a well-formed collection well formed. */
  lemma {:induction false} SelectSubsequenceWellFormed(c: Collection, f: Filter)
    requires WellFormed(c)
    ensures WellFormed(Select(c, f))
    decreases |c|
  {
    if |c| > 0 {
      var init, last := c[..|c| - 1], c[|c| - 1];
      assert WellFormed(init) by {
        assert forall i :: 0 <= i < |init| ==> init[i] == c[i];
      }
      SelectSubsequenceWellFormed(init, f);
      var s := Select(init, f);
      forall i | 0 <= i < |s|
        ensures s[i].id != last.id
      {
        assert s[i] in init;
        var j :| 0 <= j < |init| && init[j] == s[i];
        assert c[j] == s[i];
      }
    }
  }

  // ------------------------------------------------------------ reads of several

  /** Decodes a cursor's documents in order; the first failure propagates. */
  function DecodeAll(docs: Collection, uuid: string, now: Time): (r: Result<seq<Event>, StoreError>)
    ensures r.Success? ==> |r.value| == |docs|
    ensures r.Success? ==> forall i :: 0 <= i < |docs| ==> Decode(Some(docs[i]), uuid, now) == Success(r.value[i])
    ensures r.Failure? <==> exists i :: 0 <= i < |docs| && Decode(Some(docs[i]), uuid, now).Failure?
  {
    if |docs| == 0 then Success([])
    else match Decode(Some(docs[0]), uuid, now)
      case Failure(err) => Failure(Corrupt(err))
      case Success(e) =>
        match DecodeAll(docs[1..], uuid, now)
        case Failure(err) => Failure(err)
        case Success(es) => Success([e] + es)
  }

  /** The tag a child carries: `"parent_id:{id}"`. */
  function ParentTag(id: string): (r: string)
    // the decoder reads the id back as the parent id, colons and all
    ensures SplitFirstColon(r) == Some((ParentIdKey, id))
  {
    SplitTag(ParentIdKey, id);
    Tag(ParentIdKey, id)
  }

  /** `find_by_parent_id`: the documents whose tag list holds the parent
      tag, in natural order, decoded. */
  function FindByParentId(c: Collection, id: string, uuid: string, now: Time): (r: Result<seq<Event>, StoreError>)
    ensures r.Success? ==> |r.value| == |Select(c, TagIn(ParentTag(id)))|
    // position by position: the i-th child is the i-th tagged document, decoded
    ensures r.Success? ==> forall i :: 0 <= i < |r.value| ==>
              Decode(Some(Select(c, TagIn(ParentTag(id)))[i]), uuid, now) == Success(r.value[i])
    ensures r.Success? ==> forall x :: x in r.value ==>
              exists d :: d in c && d.tags.Some? && ParentTag(id) in d.tags.value
                          && Decode(Some(d), uuid, now) == Success(x)
    // fails exactly when one of the tagged documents does not decode
    ensures r.Failure? <==> exists d :: d in c && d.tags.Some? && ParentTag(id) in d.tags.value
                                        && Decode(Some(d), uuid, now).Failure?
  {
    var docs := Select(c, TagIn(ParentTag(id)));
    DecodedAreFromCollection(c, TagIn(ParentTag(id)), uuid, now);
    assert forall i :: 0 <= i < |docs| ==> docs[i] in docs;
    DecodeAll(docs, uuid, now)
  }

  /** Every decoded record of a selection is the decoding of some selected
      document of the collection. */
  lemma DecodedAreFromCollection(c: Collection, f: Filter, uuid: string, now: Time)
    ensures var r := DecodeAll(Select(c, f), uuid, now);
            r.Success? ==> forall x :: x in r.value ==>
              exists d :: d in c && Keeps(f, d) && Decode(Some(d), uuid, now) == Success(x)
  {
    var docs := Select(c, f);
    var r := DecodeAll(docs, uuid, now);
    if r.Success? {
      forall x | x in r.value
        ensures exists d :: d in c && Keeps(f, d) && Decode(Some(d), uuid, now) == Success(x)
      {
        var i :| 0 <= i < |r.value| && r.value[i] == x;
        assert docs[i] in docs;
      }
    }
  }

  // ------------------------------------------------------------ find

  /** The descending sort key of a document: the greatest value of the
      selected time field; a missing or empty field sorts below every value. */
  function SortKey(d: StorageDoc, useUpdateTime: bool): Option<Time> {
    var vals := TimeValues(d, useUpdateTime);
    if vals.None? || |vals.value| == 0 then None else Some(Max(vals.value))
  }

  lemma SortKeyIsGreatest(d: StorageDoc, useUpdateTime: bool)
    ensures var vals, k := TimeValues(d, useUpdateTime), SortKey(d, useUpdateTime);
            && (k.None? <==> vals.None? || |vals.value| == 0)
            && (k.Some? ==> k.value in vals.value && forall v :: v in vals.value ==> v <= k.value)
  {
  }

  function Max(s: seq<Time>): (m: Time)
    requires |s| > 0
    ensures m in s && forall v :: v in s ==> v <= m
  {
    if |s| == 1 then s[0]
    else
      var m := Max(s[1..]);
      assert forall v :: v in s ==> v == s[0] || v in s[1..];
      if s[0] >= m then s[0] else m
  }

  /** `a` may come before `b` in a descending sort. */
  predicate AtOrAbove(a: Option<Time>, b: Option<Time>) {
    b.None? || (a.Some? && a.value >= b.value)
  }

  /** The order `.sort` leaves: each document's key at or above every later
      one's. */
  predicate SortedBy(s: Collection, key: StorageDoc -> Option<Time>) {
    forall i, j :: 0 <= i < j < |s| ==> AtOrAbove(key(s[i]), key(s[j]))
  }

  /** Inserts `x` before the first document it is at or above. */
  function Insert(x: StorageDoc, s: Collection, key: StorageDoc -> Option<Time>): (r: Collection)
    requires SortedBy(s, key)
    ensures |r| == |s| + 1
    ensures SortedBy(r, key)
    ensures multiset(r) == multiset(s) + multiset{x}
  {
    if |s| == 0 then [x]
    else if AtOrAbove(key(x), key(s[0])) then
      HeadAbove(x, s, key);
      [x] + s
    else
      var rest := Insert(x, s[1..], key);
      assert forall y :: y in rest ==> AtOrAbove(key(s[0]), key(y)) by {
        forall y | y in rest
          ensures AtOrAbove(key(s[0]), key(y))
        {
          assert multiset(rest)[y] > 0;
          if y != x {
            assert y in s[1..];
            var k :| 0 <= k < |s[1..]| && s[1..][k] == y;
            assert s[k + 1] == y;
          }
        }
      }
      ConsSorted(s[0], rest, key);
      assert s == [s[0]] + s[1..];
      [s[0]] + rest
  }

  /** A sorted sequence stays sorted under a head at or above all of it. */
  lemma ConsSorted(h: StorageDoc, rest: Collection, key: StorageDoc -> Option<Time>)
    requires SortedBy(rest, key)
    requires forall y :: y in rest ==> AtOrAbove(key(h), key(y))
    ensures SortedBy([h] + rest, key)
  {
    var r := [h] + rest;
    forall i, j | 0 <= i < j < |r|
      ensures AtOrAbove(key(r[i]), key(r[j]))
    {
      assert r[j] == rest[j - 1];
      if i > 0 {
        assert r[i] == rest[i - 1];
      } else {
        assert rest[j - 1] in rest;
      }
    }
  }

  /** A document at or above the head of a sorted sequence is at or above
      all of it. */
  lemma HeadAbove(x: StorageDoc, s: Collection, key: StorageDoc -> Option<Time>)
    requires SortedBy(s, key) && |s| > 0 && AtOrAbove(key(x), key(s[0]))
    ensures SortedBy([x] + s, key)
  {
    forall y | y in s
      ensures AtOrAbove(key(x), key(y))
    {
      var k :| 0 <= k < |s| && s[k] == y;
      if k > 0 {
        assert AtOrAbove(key(s[0]), key(s[k]));
      }
    }
    ConsSorted(x, s, key);
  }

  /** Insertion sort, stable: documents with equal keys keep their order. */
  function SortBy(s: Collection, key: StorageDoc -> Option<Time>): (r: Collection)
    ensures |r| == |s|
    ensures SortedBy(r, key)
    ensures multiset(r) == multiset(s)
  {
    if |s| == 0 then []
    else
      assert s == [s[0]] + s[1..];
      Insert(s[0], SortBy(s[1..], key), key)
  }

  /** The key `.sort([(time_field, -1)])` orders by. */
  function TimeKey(useUpdateTime: bool): StorageDoc -> Option<Time> {
    d => SortKey(d, useUpdateTime)
  }

  /** The number of documents `.skip` passes over. */
  function Skipped(count: nat, page: nat): nat
    requires page >= 1
  {
    (page - 1) * count
  }

  /** `.skip((page - 1) * count).limit(count)`; a limit of 0 is no limit. */
  function Page(s: Collection, count: nat, page: nat): (r: Collection)
    requires page >= 1
    ensures count > 0 ==> |r| <= count
    ensures |r| <= |s|
    ensures forall i :: 0 <= i < |r| ==> Skipped(count, page) + i < |s| && r[i] == s[Skipped(count, page) + i]
    ensures Skipped(count, page) < |s| && (count == 0 || Skipped(count, page) + count >= |s|) ==>
              |r| == |s| - Skipped(count, page)
    ensures count > 0 && Skipped(count, page) + count < |s| ==> |r| == count
  {
    var lo := Skipped(count, page);
    if lo >= |s| then []
    else if count == 0 || lo + count >= |s| then s[lo..]
    else s[lo..lo + count]
  }

  /** `find`: validates the paging arguments, then filters, sorts, pages and
      decodes. */
  function Find(c: Collection, q: Query, uuid: string, now: Time): (r: Result<seq<Event>, StoreError>)
    ensures q.count < 0 ==> r == Failure(NegativeCount)
    ensures q.count >= 0 && q.page < 1 ==> r == Failure(PageBelowOne)
    ensures r.Success? ==> q.count >= 0 && q.page >= 1
    ensures r.Success? && q.count > 0 ==> |r.value| <= q.count
    ensures r.Success? ==> |r.value| <= |Select(c, QueryMatch(q))|
    // the results are the page window of the matches sorted descending, decoded in order
    ensures r.Success? ==>
              && q.count >= 0 && q.page >= 1
              && var found := Page(SortBy(Select(c, QueryMatch(q)), TimeKey(q.useUpdateTime)), q.count, q.page);
                 && |r.value| == |found|
                 && forall i :: 0 <= i < |found| ==> Decode(Some(found[i]), uuid, now) == Success(r.value[i])
  {
    if q.count < 0 then Failure(NegativeCount)
    else if q.page < 1 then Failure(PageBelowOne)
    else
      var sorted := SortBy(Select(c, QueryMatch(q)), TimeKey(q.useUpdateTime));
      DecodeAll(Page(sorted, q.count, q.page), uuid, now)
  }
}

=== FILE: store_properties.dfy ===
/** Properties of the store: what a write makes the next read see, and how
    `find` selects, orders and pages. */
module StoreProperties {
  import opened Wrappers
  import opened Timestamps
  import opened Records
  import opened Codec
  import opened CodecProperties
  import opened Store

  // ------------------------------------------------------------ reads after writes

  /** The document at a position is the one found under its `_id`. */
  lemma FindAt(c: Collection, i: nat, id: string, uuid: string, now: Time)
    requires WellFormed(c) && i < |c| && HasId(c[i], id)
    ensures FindById(c, id, uuid, now) == match Decode(Some(c[i]), uuid, now)
              case Failure(err) => Failure(Corrupt(err))
              case Success(e) => Success(e)
  {
    MatchUnique(c, id, i);
  }

  /** Writing a record under its own id, then reading that id, gives the
      record back (`save` then `find_by_id`). */
  lemma UpdateThenFind(c: Collection, id: string, e: Event, insert: bool, now: Time, uuid: string, later: Time)
    requires WellFormed(c) && Encodable(e) && e.id == Some(id)
    requires Contains(c, id) || insert
    ensures UpdateById(c, id, e, insert, now).Success?
    ensures FindById(UpdateById(c, id, e, insert, now).value, id, uuid, later) == Success(e)
  {
    var r := UpdateById(c, id, e, insert, now).value;
    UpdateByIdKeepsWellFormed(c, id, e, insert, now);
    var d := Replacement(id, e, now).value;
    assert d == Encode(e, now);
    RoundTrip(e, now, uuid, later);
    if Contains(c, id) {
      var i := FirstMatch(c, id).value;
      FindAt(r, i, id, uuid, later);
    } else {
      FindAt(r, |c|, id, uuid, later);
    }
  }

  /** `save` then `find_by_id` on the record's id gives the record back. */
  lemma SaveThenFind(c: Collection, e: Event, now: Time, freshId: string, uuid: string, later: Time)
    requires WellFormed(c) && Encodable(e)
    ensures Save(c, e, now, freshId).Success?
    ensures FindById(Save(c, e, now, freshId).value, e.id.value, uuid, later) == Success(e)
  {
    UpdateThenFind(c, e.id.value, e, true, now, uuid, later);
  }

  /** Without `insert`, updating an id that is not stored leaves it
      unfindable. */
  lemma UpdateNothingStaysMissing(c: Collection, id: string, e: Event, now: Time, uuid: string, later: Time)
    requires !Contains(c, id)
    ensures UpdateById(c, id, e, false, now) == Success(c)
    ensures FindById(UpdateById(c, id, e, false, now).value, id, uuid, later) == Failure(NotFound)
  {
  }

  /** Two positions holding the last match of an `_id` are the same. */
  lemma LastMatchDetermined(a: Collection, b: Collection, id: string)
    requires |a| == |b|
    requires forall j :: 0 <= j < |a| ==> (HasId(a[j], id) <==> HasId(b[j], id))
    ensures LastMatch(a, id) == LastMatch(b, id)
  {
    var la, lb := LastMatch(a, id), LastMatch(b, id);
    if la.Some? {
      assert HasId(b[la.value], id);
      assert lb.Some?;
      assert !(la.value < lb.value) && !(lb.value < la.value);
    }
  }

  /** A write under one id leaves every other id's read unchanged. */
  lemma UpdateLeavesOthers(c: Collection, id: string, e: Event, insert: bool, now: Time, other: string, uuid: string, later: Time)
    requires other != id
    requires UpdateById(c, id, e, insert, now).Success?
    ensures FindById(UpdateById(c, id, e, insert, now).value, other, uuid, later) == FindById(c, other, uuid, later)
  {
    var r := UpdateById(c, id, e, insert, now).value;
    if Contains(c, id) {
      var i := FirstMatch(c, id).value;
      LastMatchDetermined(c, r, other);
      match LastMatch(c, other)
      case None =>
      case Some(k) => assert k != i;
    } else if insert {
      var init := r[..|c|];
      assert init == c;
      assert !HasId(r[|c|], other);
      match LastMatch(c, other)
      case None =>
        assert !Contains(r, other) by {
          assert forall j :: 0 <= j < |c| ==> r[j] == c[j];
        }
      case Some(k) =>
        assert LastMatch(r, other) == Some(k) by {
          var l := LastMatch(r, other).value;
          assert l < |c| ==> r[l] == c[l];
          assert !(l < k) && !(k < l);
        }
    }
  }

  /** After `delete_by_id` the id is not found. */
  lemma DeleteThenFind(c: Collection, id: string, uuid: string, now: Time)
    ensures FindById(DeleteById(c, id).0, id, uuid, now) == Failure(NotFound)
  {
    var r := DeleteById(c, id).0;
    assert forall i :: 0 <= i < |r| ==> r[i] in r;
  }

  /** A record saved with a non-empty parent id is among that parent's
      children, and only then. */
  lemma EncodedChildTag(e: Event, now: Time, p: string)
    requires var t := e.tags.GetOr([]); forall i :: 0 <= i < |t| ==> ':' !in t[i].0 && !IsReserved(t[i].0)
    ensures Keeps(TagIn(ParentTag(p)), Encode(e, now)) <==> e.parentId == Some(p) && p != ""
  {
    EncodeReservedEntries(e, now, p);
  }

  /** Every stored child of `p` is among the records `find_by_parent_id`
      returns: nothing tagged with the parent is left out. */
  lemma FindByParentIdCovers(c: Collection, p: string, uuid: string, now: Time, d: StorageDoc)
    requires FindByParentId(c, p, uuid, now).Success?
    requires d in c && d.tags.Some? && ParentTag(p) in d.tags.value
    ensures Decode(Some(d), uuid, now).Success?
    ensures Decode(Some(d), uuid, now).value in FindByParentId(c, p, uuid, now).value
  {
    var docs := Select(c, TagIn(ParentTag(p)));
    var r := FindByParentId(c, p, uuid, now).value;
    assert d in docs;
    var i :| 0 <= i < |docs| && docs[i] == d;
    assert r[i] in r;
  }

  // ------------------------------------------------------------ find

  /** A page of a sorted list is sorted, and holds only its documents. */
  lemma PageOfSorted(s: Collection, key: StorageDoc -> Option<Time>, count: nat, page: nat)
    requires page >= 1 && SortedBy(s, key)
    ensures SortedBy(Page(s, count, page), key)
    ensures forall x :: x in Page(s, count, page) ==> x in s
  {
    var r, lo := Page(s, count, page), Skipped(count, page);
    forall i, j | 0 <= i < j < |r|
      ensures AtOrAbove(key(r[i]), key(r[j]))
    {
      assert r[i] == s[lo + i] && r[j] == s[lo + j];
    }
    forall x | x in r
      ensures x in s
    {
      var i :| 0 <= i < |r| && r[i] == x;
      assert s[lo + i] == x;
    }
  }

  /** The documents `find` decodes (see `Find`'s contract): documents of
      the collection that match the query, in descending order of the
      selected time field, and exactly the window of page `page` in that
      order. */
  lemma FindResults(c: Collection, q: Query)
    requires q.count >= 0 && q.page >= 1
    ensures var key := TimeKey(q.useUpdateTime);
            var sorted := SortBy(Select(c, QueryMatch(q)), key);
            var found := Page(sorted, q.count, q.page);
            && SortedBy(found, key)
            && (forall x :: x in found ==> x in c && MatchesQuery(x, q))
            && (forall i :: 0 <= i < |found| ==> found[i] == sorted[Skipped(q.count, q.page) + i])
  {
    var key := TimeKey(q.useUpdateTime);
    var matches := Select(c, QueryMatch(q));
    var sorted := SortBy(matches, key);
    var found := Page(sorted, q.count, q.page);
    PageOfSorted(sorted, key, q.count, q.page);
    forall x | x in found
      ensures x in c && MatchesQuery(x, q)
    {
      assert x in multiset(sorted);
      assert x in matches;
      assert Keeps(QueryMatch(q), x);
    }
  }

  /** A document with a single time `t` is selected by `frm`/`to` exactly
      when `frm <= t < to`: `frm` is inclusive and `to` exclusive. */
  lemma RangeBounds(d: StorageDoc, t: Time, frm: Time, to: Time, count: int, page: int)
    requires d.time == Some([t])
    ensures MatchesQuery(d, Query(None, Some(frm), Some(to), false, count, page)) <==> frm <= t < to
  {
    var vals := TimeValues(d, false).value;
    if frm <= t < to {
      assert t in vals;
    }
  }

  /** `update_time` is selected instead of the time array when asked. */
  lemma RangeOnUpdateTime(d: StorageDoc, t: Time, frm: Time, to: Time, count: int, page: int)
    requires d.updateTime == Some(t)
    ensures MatchesQuery(d, Query(None, Some(frm), Some(to), true, count, page)) <==> frm <= t < to
  {
    var vals := TimeValues(d, true).value;
    assert vals == [t];
    if frm <= t < to {
      assert t in vals;
    }
  }

  /** An empty `$all` list finds nothing. */
  lemma EmptyTagListFindsNothing(c: Collection, q: Query, uuid: string, now: Time)
    requires q.tags == Some([]) && q.count >= 0 && q.page >= 1
    ensures Find(c, q, uuid, now) == Success([])
  {
    var s := Select(c, QueryMatch(q));
    assert forall i :: 0 <= i < |s| ==> s[i] in s;
  }

  /** With `count == 0` and the first page, every matching document is
      returned. */
  lemma UnboundedFirstPage(c: Collection, q: Query, uuid: string, now: Time)
    requires q.count == 0 && q.page == 1
    requires Find(c, q, uuid, now).Success?
    ensures |Find(c, q, uuid, now).value| == |Select(c, QueryMatch(q))|
  {
    var sorted := SortBy(Select(c, QueryMatch(q)), TimeKey(q.useUpdateTime));
    assert Skipped(0, 1) == 0;
    if |sorted| > 0 {
      assert Page(sorted, 0, 1) == sorted;
    }
  }

  /** Pages of a positive size tile the sorted results: position `i` is
      entry `i % count` of page `i / count + 1`. */
  lemma PagesCover(s: Collection, count: nat, i: nat)
    requires count > 0 && i < |s|
    ensures var p := i / count + 1;
            i % count < |Page(s, count, p)| && Page(s, count, p)[i % count] == s[i]
  {
    var p := i / count + 1;
    var q, m := i / count, i % count;
    assert q * count + m == i;
    assert Skipped(count, p) == q * count;
    assert Skipped(count, p) <= i;
    var r := Page(s, count, p);
    if Skipped(count, p) + count < |s| {
      assert |r| == count;
    } else {
      assert |r| == |s| - Skipped(count, p);
    }
  }
}

=== FILE: tagmap.dfy ===
/** The free-form `tags` field: a Python dict from key to list of strings.
    Dict iteration order is insertion order, and the encoder emits tags in
    that order, so the dict is a sequence of (key, values) pairs whose keys
    are pairwise distinct. */
module TagMap {
  import opened Wrappers

  type Entry = (string, seq<string>)
  type Tags = seq<Entry>

  function Keys(t: Tags): (ks: seq<string>)
    ensures |ks| == |t|
    ensures forall i :: 0 <= i < |t| ==> ks[i] == t[i].0
  {
    if |t| == 0 then [] else [t[0].0] + Keys(t[1..])
  }

  /** No element twice. */
  predicate Distinct<T(==)>(s: seq<T>) {
    forall i, j :: 0 <= i < j < |s| ==> s[i] != s[j]
  }

  /** A well-formed dict: no key twice. */
  predicate DistinctKeys(t: Tags) {
    forall i, j :: 0 <= i < j < |t| ==> t[i].0 != t[j].0
  }

  predicate HasKey(t: Tags, k: string) {
    exists i :: 0 <= i < |t| && t[i].0 == k
  }

  /** Position of the first entry with key `k`. */
  function KeyIndex(t: Tags, k: string): (r: Option<nat>)
    ensures r.None? <==> !HasKey(t, k)
    ensures r.Some? ==> r.value < |t| && t[r.value].0 == k
    ensures r.Some? ==> forall i :: 0 <= i < r.value ==> t[i].0 != k
  {
    if |t| == 0 then None
    else if t[0].0 == k then Some(0)
    else match KeyIndex(t[1..], k)
      case None =>
        assert forall i :: 1 <= i < |t| ==> t[1..][i - 1] == t[i];
        None
      case Some(i) => Some(i + 1)
  }

  /** The first entry with key `k` is the one KeyIndex finds. */
  lemma KeyIndexIsFirst(t: Tags, k: string, i: nat)
    requires i < |t| && t[i].0 == k
    requires forall j :: 0 <= j < i ==> t[j].0 != k
    ensures KeyIndex(t, k) == Some(i)
  {
    var r := KeyIndex(t, k);
    assert r.Some? by { assert HasKey(t, k); }
    assert !(r.value < i) && !(i < r.value);
  }

  /** `t[k]`: the values stored under `k`, if any. */
  function Lookup(t: Tags, k: string): (r: Option<seq<string>>)
    ensures r.None? <==> !HasKey(t, k)
    ensures r.Some? ==> exists i :: 0 <= i < |t| && t[i] == (k, r.value)
    ensures forall i :: 0 <= i < |t| && DistinctKeys(t) && t[i].0 == k ==> r == Some(t[i].1)
  {
    match KeyIndex(t, k)
    case None => None
    case Some(i) => Some(t[i].1)
  }

  /** `d[k] = vs` on a dict: replaces the values of an existing key in place,
      or adds the key at the end. */
  function Put(t: Tags, k: string, vs: seq<string>): (r: Tags)
    ensures HasKey(t, k) ==> |r| == |t| && Keys(r) == Keys(t)
    ensures !HasKey(t, k) ==> r == t + [(k, vs)]
    ensures forall i :: 0 <= i < |t| && t[i].0 != k ==> r[i] == t[i]
    ensures Lookup(r, k) == Some(vs)
  {
    match KeyIndex(t, k)
    case None =>
      var r := t + [(k, vs)];
      KeyIndexIsFirst(r, k, |t|);
      r
    case Some(i) =>
      var r := t[i := (k, vs)];
      KeyIndexIsFirst(r, k, i);
      r
  }

  /** Put leaves every other key's values alone. */
  lemma PutOtherKey(t: Tags, k: string, vs: seq<string>, k': string)
    requires k' != k
    ensures Lookup(Put(t, k, vs), k') == Lookup(t, k')
  {
    var r := Put(t, k, vs);
    match KeyIndex(t, k')
    case Some(i) =>
      KeyIndexIsFirst(r, k', i);
    case None =>
      assert !HasKey(r, k');
  }

  /** Assigning a key the values it already has changes nothing. */
  lemma PutSame(t: Tags, k: string)
    requires HasKey(t, k)
    ensures Put(t, k, Lookup(t, k).value) == t
  {
  }

  /** An entry added at the end is invisible under any other key. */
  lemma LookupAppendOther(t: Tags, e: Entry, k: string)
    requires e.0 != k
    ensures Lookup(t + [e], k) == Lookup(t, k)
  {
    HasKeyAppend(t, e.0, e.1, k);
    match KeyIndex(t, k)
    case Some(i) =>
      KeyIndexIsFirst(t + [e], k, i);
    case None =>
  }

  /** A second assignment to the same key overrides the first. */
  lemma PutPut(t: Tags, k: string, x: seq<string>, y: seq<string>)
    ensures Put(Put(t, k, x), k, y) == Put(t, k, y)
  {
    match KeyIndex(t, k)
    case None =>
      KeyIndexIsFirst(t + [(k, x)], k, |t|);
    case Some(i) =>
      KeyIndexIsFirst(t[i := (k, x)], k, i);
  }

  /** `defaultdict(list)[k].append(v)`: the value goes at the end of `k`'s
      list, and a key seen for the first time goes at the end of the dict. */
  function AppendValue(t: Tags, k: string, v: string): (r: Tags)
    ensures Lookup(r, k) == Some(Lookup(t, k).GetOr([]) + [v])
  {
    Put(t, k, Lookup(t, k).GetOr([]) + [v])
  }

  /** Adding an entry at the end adds exactly its key. */
  lemma HasKeyAppend(t: Tags, k: string, vs: seq<string>, k': string)
    ensures HasKey(t + [(k, vs)], k') <==> HasKey(t, k') || k' == k
  {
    var r := t + [(k, vs)];
    if HasKey(t, k') {
      var i :| 0 <= i < |t| && t[i].0 == k';
      assert r[i] == t[i];
    }
    if k' == k {
      assert r[|t|].0 == k;
    }
  }

  /** Appending the values of `vs` one by one, in order. */
  function AppendAll(t: Tags, k: string, vs: seq<string>): (r: Tags)
    ensures |vs| == 0 ==> r == t
  {
    if |vs| == 0 then t else AppendValue(AppendAll(t, k, vs[..|vs| - 1]), k, vs[|vs| - 1])
  }

  /** Appending a non-empty list one value at a time is one assignment of
      the old list extended by all of them. */
  lemma {:induction false} AppendAllIsPut(t: Tags, k: string, vs: seq<string>)
    requires |vs| > 0
    ensures AppendAll(t, k, vs) == Put(t, k, Lookup(t, k).GetOr([]) + vs)
  {
    var init, last := vs[..|vs| - 1], vs[|vs| - 1];
    var old_ := Lookup(t, k).GetOr([]);
    assert vs == init + [last];
    if |init| == 0 {
      assert old_ + vs == old_ + [last];
    } else {
      AppendAllIsPut(t, k, init);
      assert old_ + init + [last] == old_ + vs;
      PutPut(t, k, old_ + init, old_ + vs);
    }
  }

  lemma PutKeepsDistinct(t: Tags, k: string, vs: seq<string>)
    requires DistinctKeys(t)
    ensures DistinctKeys(Put(t, k, vs))
  {
    var r := Put(t, k, vs);
    forall i, j | 0 <= i < j < |r|
      ensures r[i].0 != r[j].0
    {
      assert Keys(r)[i] == r[i].0 && Keys(r)[j] == r[j].0;
      if !HasKey(t, k) && j == |t| {
        assert Keys(r)[i] == Keys(t)[i];
      } else {
        assert Keys(r)[i] == Keys(t)[i] && Keys(r)[j] == Keys(t)[j];
      }
    }
  }
}

=== FILE: timestamps.dfy ===
/** Timestamps as integer microseconds since the Unix epoch, in UTC.

    Python's `datetime` keeps a `microsecond` component in 0..999999; with
    Dafny's Euclidean `%` that component is `t % 1_000_000` for every `t`,
    including instants before the epoch. */
module Timestamps {
  import opened Wrappers

  type Time = int

  const MicrosPerSecond: int := 1_000_000
  const MicrosPerMilli: int := 1000

  /** The `datetime.microsecond` component of an instant. */
  function Microsecond(t: Time): (us: int)
    ensures 0 <= us < MicrosPerSecond
  {
    t % MicrosPerSecond
  }

  /** An instant with no sub-millisecond digits. */
  predicate IsMillisecondAligned(t: Time) {
    t % MicrosPerMilli == 0
  }

  /** `_ignore_microseconds` / `ignore_microseconds`: replaces the microsecond
      component `us` by `int(us / 1000) * 1000`. `us` is never negative, so
      Python's `int()` of the quotient is the floor. */
  function IgnoreMicroseconds(t: Time): (r: Time)
    ensures IsMillisecondAligned(r)
    ensures Microsecond(r) % MicrosPerMilli == 0
    ensures r <= t && t - r < MicrosPerMilli
    // only the microsecond component changes: the whole seconds agree
    ensures r / MicrosPerSecond == t / MicrosPerSecond
  {
    var us := Microsecond(t);
    var secs, millis := t / MicrosPerSecond, us / MicrosPerMilli;
    var r := t - us + millis * MicrosPerMilli;
    assert r == secs * 1_000_000 + millis * 1000 && 0 <= millis < 1000 && millis * 1000 <= us by {
      assert t == secs * 1_000_000 + us;
      assert us == millis * 1000 + us % 1000;
    }
    assert r % 1000 == 0 by {
      assert r == (secs * 1000 + millis) * 1000;
    }
    assert r % 1_000_000 == millis * 1000 && r / 1_000_000 == secs;
    r
  }

  /** Truncation, not rounding: the result is the greatest millisecond-aligned
      instant at or before the input. */
  lemma IgnoreMicrosecondsIsFloor(t: Time, m: Time)
    requires IsMillisecondAligned(m) && m <= t
    ensures m <= IgnoreMicroseconds(t)
  {
    var r := IgnoreMicroseconds(t);
    // both are multiples of 1000, and m - r < 1000
    var a, b := m / MicrosPerMilli, r / MicrosPerMilli;
    assert m == MicrosPerMilli * a;
    assert r == MicrosPerMilli * b;
    assert a <= b;
  }

  /** Truncating an aligned instant changes nothing, so truncation is idempotent. */
  lemma IgnoreMicrosecondsFixesAligned(t: Time)
    requires IsMillisecondAligned(t)
    ensures IgnoreMicroseconds(t) == t
  {
    IgnoreMicrosecondsIsFloor(t, t);
  }

  /** `from_string`: an unparsable string (a `None` parse) stays `None`,
      anything else is truncated. */
  function FromString(parsed: Option<Time>): (r: Option<Time>)
    ensures r.None? <==> parsed.None?
    ensures r.Some? ==> IsMillisecondAligned(r.value) && r.value <= parsed.value
                        && parsed.value - r.value < MicrosPerMilli
  {
    match parsed
    case None => None
    case Some(t) => Some(IgnoreMicroseconds(t))
  }
}

=== FILE: wrappers.dfy ===
/** Option and Result, the two failure-carrying datatypes the rest of the
    model uses in place of Python's `None` and raised exceptions. */
module Wrappers {

  datatype Option<+T> = None | Some(value: T) {

    predicate IsFailure() {
      None?
    }

    function PropagateFailure<U>(): Option<U>
      requires None?
    {
      None
    }

    function Extract(): T
      requires Some?
    {
      value
    }

    /** The value, or `default` when there is none (a field default). */
    function GetOr(default: T): T {
      match this
      case Some(v) => v
      case None => default
    }
  }

  datatype Result<+R, +E> = Success(value: R) | Failure(error: E) {

    predicate IsFailure() {
      Failure?
    }

    function PropagateFailure<U>(): Result<U, E>
      requires Failure?
    {
      Failure(error)
    }

    function Extract(): R
      requires Success?
    {
      value
    }
  }
}
